=== FILE: README.md ===
# Game churn feature engine, modelled in Dafny

This project models the feature engine of the game-churn prediction system.
The engine turns raw per-platform game histories into one feature row per
player. The histories come from Chess.com games, OpenDota matches and Riot
League of Legends matches. The model has three stages.

- **Standardisation** (`Standardize`). Each platform's parsed JSON records become
  unified `Activity` records: player, platform, UTC timestamp, duration,
  result, optional rating and game mode. The loader finds every collected file
  in a raw-data directory listing, standardises it, and returns all records in
  ascending timestamp order.
- **Feature engineering** (`Engineer`). For one `(player_id, platform)` key it
  computes:
  - game counts, playtime and distinct-day session rates over the 7-, 14- and
    30-day windows before a reference instant;
  - the longest gap between consecutive games in the 30-day window;
  - the 7-day-over-14-day trends;
  - win rates and the current rating with its 30-day change;
  - OpenDota peer counts;
  - a 0-100 engagement score;
  - the churn label.
- **Table build** (`Build`). It computes one row per distinct key of the loaded
  records, against one reference instant.

Supporting modules:

| module | contents |
|---|---|
| `Wrappers` | `Option` |
| `Strings` | ASCII lower-casing, suffixes, `str.replace`, `rsplit` |
| `Rounding` | Python's `round(x, n)` on exact reals |
| `Timeline` | sorting by timestamp |
| `Schema` | the record and row types |
| `RawData` | the parsed raw JSON and the raw-data directories |

Representation choices:

- **Timestamps** are integer UTC milliseconds. Chess.com and OpenDota epoch
  seconds are multiplied by 1000. The Riot `gameCreation` value is already in
  milliseconds.
- **Calendar day.** A timestamp's day is `timestamp / 86_400_000`, rounded down.
- **The clock** becomes the parameter `now`. The source reads it for missing
  timestamps and for the default reference instant.
- **Churn threshold.** The configured threshold of days (default 14 in
  `src/game_churn/utils/config.py:26`) is the parameter `threshold`.
- **Files and directories.** A missing file is `None`. A missing directory is
  `None`. A directory is its file listing plus the parsed contents of its files.
- **JSON fields.** A missing member and a JSON `null` are both `None`, with
  one exception: the Riot account's `puuid` keeps the two apart
  (`RawData.Member`), because `account.get("puuid", "")` gives `""` for a
  missing member but `None` for a `null` one.

## Model

| member | source | states |
|---|---|---|
| Schema.NewActivity | src/game_churn/features/schema.py:10-19 | A record given only player, platform and timestamp has duration 0, result unknown, no rating and game mode "unknown". |
| Schema.DefaultFeatures | src/game_churn/features/schema.py:22-65 | A feature row with only its identity given has each of its 21 other fields at the dataclass default: every count and float 0, no current rating, a rating change of 0, not churned. |
| Standardize.EpochSecondsOrNow | src/game_churn/features/standardize.py:30-31 | A present non-zero epoch-seconds value becomes that instant in milliseconds. A missing or zero value means the current instant. |
| Standardize.ChessResult | src/game_churn/features/standardize.py:39-45 | "win" is a win. The four loss codes are losses. Everything else, a missing code included, is a draw. All three are stated both ways. |
| Standardize.StandardizeChessCom | src/game_churn/features/standardize.py:19-62 | No games file gives no records. Otherwise there is one record per game with the lower-cased username, platform chess_com, duration 0, and the timestamp, result and rating of the player's side. |
| Standardize.ChessRecordUsesNamedSide | src/game_churn/features/standardize.py:34-47 | When exactly one side carries the player's name, ignoring case, the result and rating come from that side. |
| Standardize.StandardizeOpenDota | src/game_churn/features/standardize.py:65-100 | No matches file gives no records. Otherwise there is one record per match. It is a win exactly when the player's slot side, radiant below 128, is the side that won; otherwise a loss. It has no rating, and its duration and timestamp come from the match. |
| Standardize.AccountKey | src/game_churn/features/standardize.py:116 | The account key is absent (`None`) exactly when the file's `puuid` is `null`. It is `""` when the member is missing, and the value itself when present. |
| Standardize.FindParticipant | src/game_churn/features/standardize.py:126-127 | Returns the first participant whose `puuid` equals the account key, a participant without one counting as `None`, and None exactly when no participant matches. |
| Standardize.RiotRecord | src/game_churn/features/standardize.py:120-141 | A match yields a record exactly when the account is among its participants. The record carries the match's creation time, its duration, no rating, and a win exactly when the participant's `win` is true. |
| Standardize.RiotRecords | src/game_churn/features/standardize.py:120-143 | One record per match containing the account, and no other: the record count is the number of such matches, and each match's record is in the output. |
| Standardize.StandardizeRiot | src/game_churn/features/standardize.py:103-143 | Both files are required. With both present the records are those of the matches, in file order, for the account's key; their count is the number of matches containing the account. Every record belongs to the lower-cased `<game name>_<tag line>`, on riot_lol, unrated. |
| Standardize.RiotRecordsAppend | src/game_churn/features/standardize.py:120-143 | The records of two match lists in a row are the records of the first followed by those of the second: each match is read on its own, in file order. |
| Standardize.RiotRecordsOne | src/game_churn/features/standardize.py:125-141 | A single match gives exactly its one record when the account plays in it, and nothing otherwise. |
| Standardize.RiotSkipsForeignMatches | src/game_churn/features/standardize.py:127-129 | Matches in which the account never appears contribute nothing. |
| Standardize.NullAccountMatchesAnonymousParticipant | src/game_churn/features/standardize.py:116-129 | An account whose `puuid` is `null` takes a match whose only participant has no `puuid` (one record); an account without the member takes nothing from it. |
| Standardize.GlobStems | src/game_churn/features/standardize.py:154 | Sound and complete for `*<suffix>.json`: every stem found names a listed `<stem>.json` file and ends in the suffix, and every listed file ending in `<suffix>.json` gives its stem. |
| Standardize.StemOwner | src/game_churn/features/standardize.py:155 | Corrected recovery (see Findings): the owner is the stem's text before the kind suffix, so owner followed by suffix is the stem. |
| Standardize.ChessFileNameRoundTrip | src/game_churn/features/standardize.py:152-156 | With the corrected, suffix-stripping recovery, a games file named after a lower-cased username is found: the username comes back from the file name, and the lookup names that same file. |
| Standardize.ChessFileNameRoundTripAsWritten | src/game_churn/features/standardize.py:152-156 | With the source's `stem.replace("_games", "")`, the same round trip holds for every lower-cased username that does not itself contain `_games`. |
| Strings.RemoveAllFromSuffixed | src/game_churn/features/standardize.py:155 | Deleting a pattern whose first character does not recur in it from `u + pattern`, where `u` holds no copy, gives back `u`. |
| Standardize.ChessFromStemsReadsOwnFiles | src/game_churn/features/standardize.py:152-156 | Over the collector's games files, the loader reads every file exactly once, as the games of the user the file is named after. |
| Standardize.DotaFromStemsReadsOwnFiles | src/game_churn/features/standardize.py:159-163 | Over the collector's matches files, the loader reads every file exactly once, as the matches of the account the file is named after. |
| Standardize.RiotFileNameRoundTrip | src/game_churn/features/standardize.py:166-172 | Splitting `<game name>_<tag line>` at its last underscore and rejoining gives the same file-name stem, even when the tag line holds an underscore. |
| Standardize.RiotStemWithoutUnderscoreSkipped | src/game_churn/features/standardize.py:170-172 | A Riot account stem without an underscore yields no records. |
| Standardize.ChessFromStems | src/game_churn/features/standardize.py:152-156 | The corrected Chess.com loader (see Findings): every record it yields is a chess_com record. |
| Standardize.DotaFromStems | src/game_churn/features/standardize.py:159-163 | Every record the OpenDota loader yields is an opendota record. |
| Standardize.RiotFromStems | src/game_churn/features/standardize.py:166-172 | Every record the Riot loader yields is a riot_lol record. |
| Standardize.Collected | src/game_churn/features/standardize.py:149-172 | Over the corrected loaders (see Findings), every collected record is on one of the three platforms. |
| Standardize.LoadAllActivities | src/game_churn/features/standardize.py:146-188 | Over the corrected loaders (see Findings): the result is sorted by timestamp and is a permutation of every platform's standardised records. It is empty when no platform directory exists. Every record is on one of the three platforms. |
| Standardize.ChessFromStemsAsWritten | src/game_churn/features/standardize.py:155 | The Chess.com loader as written: every record it yields is a chess_com record. |
| Standardize.ChessStemReplaceCollision | src/game_churn/features/standardize.py:154-156 | With users `x` and `x_games` collected, the loader as written reads `x`'s file twice and never `x_games`'s. The suffix-stripping loader reads each file once for its own user. |
| Strings.RemoveAll | src/game_churn/features/standardize.py:155 | `str.replace(pattern, "")` returns a string without the pattern unchanged, and otherwise removes at least one whole copy; it never lengthens the string. |
| Strings.OccursInTail | src/game_churn/features/standardize.py:155 | When the pattern does not start the string, it occurs in the string exactly when it occurs after the first character. |
| Strings.SplitAtLast | src/game_churn/features/standardize.py:170 | `rsplit("_", 1)` gives two parts exactly when the name holds an underscore. The parts rejoined with the separator are the name, and the second part holds no separator. |
| Timeline.SortByTime | src/game_churn/features/standardize.py:188 | The output is in ascending timestamp order and is a permutation of the input. |
| Rounding.RoundError | src/game_churn/features/engineer.py:38 | `round(x, n)` is within half a unit of the last place of x. |
| Rounding.RoundMonotone | src/game_churn/features/engineer.py:38 | `round(x, n)` never reverses the order of two values. |
| Engineer.OfPlayer | src/game_churn/features/engineer.py:23 | Keeps exactly the records of the key. |
| Engineer.OfPlayerMultiplicity | src/game_churn/features/engineer.py:23 | The filter keeps each of the key's records as often as the input holds it, and no other record. |
| Engineer.Since | src/game_churn/features/engineer.py:31-32 | Keeps exactly the records at or after the window's cutoff. |
| Engineer.SinceMultiplicity | src/game_churn/features/engineer.py:31-32 | The window keeps each record at or after the cutoff as often as the input holds it, and no other record. |
| Engineer.SinceKeepsAll | src/game_churn/features/engineer.py:31-32 | A cutoff no later than every record keeps the records unchanged. |
| Engineer.AtOrBefore | src/game_churn/features/engineer.py:113 | Keeps exactly the records at or before the cutoff. |
| Engineer.AtOrBeforeMultiplicity | src/game_churn/features/engineer.py:113 | Keeps each record at or before the cutoff as often as the input holds it, and no other record. |
| Engineer.RatedOnly | src/game_churn/features/engineer.py:109 | Keeps exactly the records that carry a rating. |
| Engineer.RatedOnlyMultiplicity | src/game_churn/features/engineer.py:109 | Keeps each rated record as often as the input holds it, and no other record. |
| Engineer.WinCount | src/game_churn/features/engineer.py:103 | The win count is at most the number of games; it is 0 exactly when no game is a win, and the number of games exactly when every game is. |
| Engineer.WinCountAppend | src/game_churn/features/engineer.py:103 | Wins add up over concatenated windows. |
| Engineer.PlayDays | src/game_churn/features/engineer.py:42-44 | The play days are exactly the calendar days of the games. There are no more of them than games, and at least one when there is a game. |
| Engineer.SessionRate | src/game_churn/features/engineer.py:40-47 | The session rate is 0 for an empty window, otherwise the number of distinct play days over the window's days rounded to 3 places; it is positive exactly when the window holds a game. |
| Engineer.SessionRateAtMostGameRate | src/game_churn/features/engineer.py:40-45 | A day counts once however many games fall on it, so the session rate never exceeds the rounded games per window day. |
| Engineer.WindowStats | src/game_churn/features/engineer.py:30-47 | The game count is the number of records at or after the window's cutoff, the playtime is their summed duration in hours rounded to 2 places, and the session rate is that of the window. |
| Engineer.MaxStep | src/game_churn/features/engineer.py:53-58 | The result bounds every gap between consecutive timestamps and is attained by one of them. |
| Engineer.MaxGapDays | src/game_churn/features/engineer.py:49-60 | The gap is the 30-day sentinel when the 30-day window holds fewer than two games. Otherwise it is the largest step between consecutive games of the time-ordered window, in days, rounded to 2 places. It is never negative. |
| Engineer.RoundedStepsBelow | src/game_churn/features/engineer.py:54-58 | Rounding each step to days never exceeds the rounded largest step. |
| Engineer.RoundedStepAttained | src/game_churn/features/engineer.py:54-58 | Some step, rounded to days, equals the rounded largest step. |
| Engineer.MaxGapBoundsEveryGap | src/game_churn/features/engineer.py:49-58 | The reported gap is the largest rounded gap between consecutive games of the time-ordered 30-day window: it bounds every such gap and equals one. |
| Engineer.TimeWindowFeatures | src/game_churn/features/engineer.py:14-62 | A key without records gets the zeroed window fields with the 30-day gap. Otherwise the fields are the 7-, 14- and 30-day window statistics of the key's records and their 30-day maximum gap; each window's count is the number of the key's records in that window. |
| Engineer.EmptyWindowsAgreeWithFiltering | src/game_churn/features/engineer.py:213-228 | The general window computation on no records gives exactly the zeroed fields of the early return. |
| Engineer.SinceNested | src/game_churn/features/engineer.py:30-37 | A later cutoff keeps no more games and, with non-negative durations, no more playtime. |
| Engineer.WindowContainment | src/game_churn/features/engineer.py:30-38 | `games_7d <= games_14d <= games_30d`. With non-negative durations, `0 <= playtime_7d <= playtime_14d <= playtime_30d`. |
| Engineer.TrendFeatures | src/game_churn/features/engineer.py:65-83 | Each trend is 0 when its 14-day denominator is not positive, and otherwise the 7-day figure over the 14-day figure rounded to 3 places. Given nested windows, each lies in [0, 1]. |
| Engineer.TrendOfNestedCounts | src/game_churn/features/engineer.py:71-74 | Equal positive 7- and 14-day game counts give a games trend of exactly 1; no game in the last 7 days gives 0. |
| Engineer.RecentPlayerTrendIsOne | src/game_churn/features/engineer.py:65-74 | A key all of whose games fall in the last 7 days has a games trend of exactly 1 in its row. |
| Engineer.WinRate | src/game_churn/features/engineer.py:98-106 | The win rate is 0 for an empty window, and otherwise the wins over the games of the window rounded to 3 places. It lies in [0, 1]. |
| Engineer.WinRateAllWins | src/game_churn/features/engineer.py:102-104 | A window of wins only has win rate 1. |
| Engineer.WinRateNoWins | src/game_churn/features/engineer.py:102-104 | Losses, draws and unknown results count only in the denominator, so a window without wins has win rate 0. |
| Engineer.WinRateOneOfTwo | src/game_churn/features/engineer.py:102-104 | One win and one loss give a win rate of 0.5. |
| Engineer.LatestRating | src/game_churn/features/engineer.py:109-111 | None exactly when no record is rated. Otherwise the rating of a rated record no rated record is later than. |
| Engineer.PerformanceFeatures | src/game_churn/features/engineer.py:86-122 | The win rates are those of the key's 7- and 30-day windows, both in [0, 1]. The current rating is the latest rating. The 30-day change is the current rating minus the latest rating at or before the 30-day cutoff; it is 0 when nothing rated lies at or before the cutoff, or when there is no current rating. |
| Engineer.RatingChangeBetweenTwoGames | src/game_churn/features/engineer.py:109-117 | With one rated game at or before the 30-day cutoff and a later rated game, the rating change is the later rating minus the earlier one. |
| Engineer.SocialFeatures | src/game_churn/features/engineer.py:125-139 | No peers file gives 0 and 0. Otherwise the peer count is the file's length and the games are the sum of the peers' counts, a missing count being 0. |
| Engineer.PeerGamesTotalNonNegative | src/game_churn/features/engineer.py:137 | Without negative counts the peer games total is non-negative. |
| Engineer.PeerGamesAtLeastPeers | src/game_churn/features/engineer.py:136-137 | When every peer was played with at least once, the peer games are at least the peer count. |
| Engineer.EngagementScore | src/game_churn/features/engineer.py:142-166 | The score never exceeds 100, and is non-negative whenever its inputs are. |
| Engineer.EngagementMonotone | src/game_churn/features/engineer.py:142-166 | Raising any of the five signals never lowers the score. |
| Engineer.EngagementClampInactive | src/game_churn/features/engineer.py:146-166 | The caps sum to 100, so with a win rate of at most 1 the final clamp never changes the score. |
| Engineer.EngagementFullMarks | src/game_churn/features/engineer.py:146-166 | 60 games, two thirds of a session a day, trend 1, only wins and 45 peers score exactly 100. |
| Engineer.LatestTimestamp | src/game_churn/features/engineer.py:182 | The latest timestamp is one of the records' and no record is later. |
| Engineer.DaysAtLeast | src/game_churn/features/engineer.py:183-184 | `days_since >= threshold` on fractional days is the same as comparing milliseconds with threshold times a day's milliseconds. |
| Engineer.AllOldIffLatestOld | src/game_churn/features/engineer.py:182-184 | Every game lies at least the threshold before the reference instant exactly when the latest game does. |
| Engineer.ChurnLabel | src/game_churn/features/engineer.py:169-186 | A key without records is churned with 999 days. Otherwise it is churned exactly when every one of its games lies at least `threshold` days before the reference instant. The stored day count is the rounded time since its latest game. |
| Engineer.ChurnUsesUnroundedDays | src/game_churn/features/engineer.py:183-186 | One minute short of 14 days is stored as 14.0 days, yet the key is not churned at threshold 14. |
| Engineer.RowSocial | src/game_churn/features/engineer.py:201-205 | The peers file is read only on OpenDota. Other platforms get 0 peers and 0 peer games. |
| Engineer.BuildFeaturesForPlayer | src/game_churn/features/engineer.py:189-210 | The row invariants hold (listed after this table). |
| Engineer.RowFieldsFromCalculators | src/game_churn/features/engineer.py:189-210 | Every field of a row is the output of its calculator on the same records, key and reference instant: windows, gap, trends, win rates, rating and change, peers. |
| Engineer.PlaytimeRowInvariants | src/game_churn/features/engineer.py:189-210 | With non-negative durations, playtime grows with the window and the playtime trend lies in [0, 1]. |
| Engineer.EmptyPlayerRow | src/game_churn/features/engineer.py:213-228 | Outside OpenDota, a key without records gets the schema defaults except three fields: a 30-day gap, 999 days since the last game, and churned. |
| Engineer.EmptyOpenDotaRowUsesPeers | src/game_churn/features/engineer.py:201-205 | An OpenDota key without records still reads its peers file, and only the peer component scores. |
| Build.DistinctKeys | src/game_churn/features/build.py:32 | No key appears twice. A key is listed exactly when some record carries it. |
| Build.FeatureRows | src/game_churn/features/build.py:35-43 | One row per key, in key order, each the row built for that key. |
| Build.TableOfKeys | src/game_churn/features/build.py:32-43 | Every record's key has a row and every row's key has a record. No key has two rows. Each row is its own key's row. |
| Build.RowsIgnoreKeyOrder | src/game_churn/features/build.py:32-43 | The set of rows does not depend on the order of the distinct keys. |
| Build.BuildAllFeatures | src/game_churn/features/build.py:20-58 | Nothing loaded gives an empty table. Otherwise the row keys are exactly the loaded keys, each once, and every row is built from records its key actually has. |

The row invariants of `Engineer.BuildFeaturesForPlayer` are:

- the row carries its key;
- `games_7d <= games_14d <= games_30d`;
- the games trend and both win rates lie in [0, 1];
- the engagement score lies in [0, 100] and is computed from the row's own fields;
- the gap is non-negative;
- platforms other than OpenDota have no peers;
- the churn fields are those of `Engineer.ChurnLabel`.

### Notes on the source's behaviour

- **`rating_change_30d`** compares with the latest rating at or before the
  30-day cutoff, the cutoff instant included
  (`src/game_churn/features/engineer.py:113`).
- **The games trend never exceeds 1.** The 7-day window is contained in the
  14-day window, so the 7-day count is at most the 14-day count
  (`Engineer.TrendFeatures`, `Engineer.WindowContainment`). The playtime
  trend stays within 1 only when durations are non-negative
  (`Engineer.PlaytimeRowInvariants`). A negative duration in a raw file can
  push it above 1.
- **Malformed files raise.** The loaders parse without a guard
  (`src/game_churn/features/standardize.py:15-16`), so a malformed file ends
  the load with an exception rather than being skipped.
- **Churn flag.** The churn flag is taken from the unrounded day count while
  the stored count is rounded (`Engineer.ChurnUsesUnroundedDays`).
- **Unknown chess result.** A Chess.com side with an unrecognised result code
  is recorded as a draw (`src/game_churn/features/standardize.py:44-45`).

## Left out

- Reading and parsing JSON, writing the parquet file, logging and the polars
  data frames are not modelled. Parsed files are values and the table is a
  sequence of rows.
- Malformed JSON, and JSON values of the wrong type, are not modelled. In the
  source they raise an exception. One example is a `null` OpenDota
  `player_slot`: Python cannot compare `None < 128`.
- Floating point is not modelled. Arithmetic is on exact reals, and `round` is
  round-half-even on the exact value. IEEE representation effects of Python's
  `round` are not modelled.
- `str.lower()` is modelled for ASCII letters only.
- Each calculator reads the clock separately when no reference date is given.
  The model uses one instant, `now`, for all of them and for missing
  timestamps.
- Timestamps are whole milliseconds. Sub-millisecond parts of Riot
  `gameCreation / 1000` are not modelled.
- The order of records with equal timestamps, and the order of distinct keys,
  are unspecified in the source. The model fixes one order and states only
  what holds for every order (`Timeline.SortByTime`, `Build.RowsIgnoreKeyOrder`).
- Engineer.LatestRating: under equal timestamps the source picks one of the
  latest rated records, in an order polars leaves unspecified. The contract
  states only that the rating belongs to some latest rated record.
- Engineer.WindowContainment: the playtime order is stated only for
  non-negative durations. A raw file with a negative duration breaks it in the
  source too.
- Engineer.PlaytimeRowInvariants: stated only for non-negative durations, for
  the same reason.
- Standardize.DotaFromStems and Standardize.RiotFromStems: the OpenDota
  (`_matches`) and Riot (`_account`) loaders use the same replace-every-occurrence
  construct as the Chess.com loader. The model strips only the suffix, as for
  Chess.com. OpenDota account ids are numeric, so they cannot collide. A Riot
  name containing `_account` would collide.
- Standardize.StemOwner, Standardize.ChessFromStems, Standardize.Collected
  and Standardize.LoadAllActivities model the corrected file-name recovery
  (strip the trailing suffix only; see Findings), not the source's
  `stem.replace`. They do not promise what the source does for identifiers
  that contain the suffix; `Standardize.ChessFromStemsAsWritten` models that.
- Standardize.ChessFileNameRoundTrip: stated for the corrected recovery. The
  source's recovery gives the username back only when it holds no `_games`
  (`Standardize.ChessFileNameRoundTripAsWritten`); see Findings.
- Standardize.ChessFromStems: the corrected Chess.com loader. It strips only
  the trailing `_games` where `src/game_churn/features/standardize.py:155`
  deletes every occurrence (see Findings).
- Standardize.RiotFromStems: strips only the trailing `_account` where
  `src/game_churn/features/standardize.py:169` deletes every occurrence. A
  Riot name containing `_account` is read under a different name in the source.
- Standardize.Collected: built on the corrected loaders for the same reason.
- Standardize.LoadAllActivities: built on the corrected loaders for the same reason.
- A JSON `null` game mode is not modelled apart from a missing one. The model
  records "unknown" for both. For OpenDota the source records the text
  `"None"` (`str(None)`, `src/game_churn/features/standardize.py:96`). For Riot (`gameMode`, `src/game_churn/features/standardize.py:139`) and
  Chess.com (`time_class`, `src/game_churn/features/standardize.py:48`) it passes `None` to the record's
  `game_mode: str` field (`src/game_churn/features/schema.py:19`), which
  rejects it, so the load raises. This is the general case of the line on
  values of the wrong type above.
- Engineer.SocialFeatures: a peer whose `games` is `null` counts 0 in the
  model; in the source `sum` raises on it.
- The collectors, the model training, the API and the dashboard are outside
  the feature engine and are not modelled.

## Findings

| source | as written | input that shows it | evidently intended | confidence | as-written member | corrected member |
|---|---|---|---|---|---|---|
| src/game_churn/features/standardize.py:155 | The username is recovered by deleting every `_games` in the file stem, not only the trailing suffix. | Users `x` and `x_games`, each with one games file (`x_games.json`, `x_games_games.json`). Both stems give username `x`, so `x`'s game is loaded twice and `x_games`'s game is never loaded. A single user `a_games1` (file `a_games1_games.json`) loses every game: the stem becomes `a1`, and `a1_games.json` does not exist. | Strip only the trailing `_games`, so each file is read once as its own user's games. | medium, not executed | Standardize.ChessStemReplaceCollision | Standardize.ChessFromStemsReadsOwnFiles |

=== FILE: build.dfy ===
/** The feature table: one row per distinct `(player_id, platform)` key of
    the loaded activity list, every row computed against the same instant. */
module Build {
  import opened Schema
  import opened RawData
  import opened Standardize
  import opened Engineer

  datatype PlayerKey = PlayerKey(playerId: string, platform: string)

  function KeyOf(a: Activity): PlayerKey {
    PlayerKey(a.playerId, a.platform)
  }

  function RowKey(r: PlayerFeatures): PlayerKey {
    PlayerKey(r.playerId, r.platform)
  }

  /** The distinct keys of a list, in order of first occurrence. The source
      leaves the order of its distinct keys unspecified; this is one
      admissible order (see `RowsIgnoreKeyOrder`). */
  function DistinctKeys(acts: seq<Activity>): (keys: seq<PlayerKey>)
    ensures forall i, j :: 0 <= i < j < |keys| ==> keys[i] != keys[j]
    ensures forall k :: k in keys <==> exists a :: a in acts && KeyOf(a) == k
    ensures |keys| <= |acts|
  {
    if |acts| == 0 then []
    else
      var front := acts[..|acts| - 1];
      var last := acts[|acts| - 1];
      assert forall a :: a in acts <==> a in front || a == last;
      var rest := DistinctKeys(front);
      if KeyOf(last) in rest then rest else rest + [KeyOf(last)]
  }

  /** One row per key, in the order of the keys. */
  function FeatureRows(acts: seq<Activity>, keys: seq<PlayerKey>, ref: int, threshold: int, store: RawStore)
    : (rows: seq<PlayerFeatures>)
    ensures |rows| == |keys|
    ensures forall i :: 0 <= i < |keys| ==>
      rows[i] == BuildFeaturesForPlayer(acts, keys[i].playerId, keys[i].platform, ref, threshold, store)
  {
    seq(|keys|, i requires 0 <= i < |keys| => BuildFeaturesForPlayer(acts, keys[i].playerId, keys[i].platform, ref, threshold, store))
  }

  /** The rows of the distinct keys of `acts`: every record's key has a
      row, every row's key has a record, no key twice, and each row is the
      row of its own key. */
  lemma TableOfKeys(acts: seq<Activity>, ref: int, threshold: int, store: RawStore)
    ensures var rows := FeatureRows(acts, DistinctKeys(acts), ref, threshold, store);
      && (forall a :: a in acts ==> exists r :: r in rows && RowKey(r) == KeyOf(a))
      && (forall r :: r in rows ==> exists a :: a in acts && KeyOf(a) == RowKey(r))
      && (forall i, j :: 0 <= i < j < |rows| ==> RowKey(rows[i]) != RowKey(rows[j]))
      && (forall r :: r in rows ==> r == BuildFeaturesForPlayer(acts, r.playerId, r.platform, ref, threshold, store))
  {
    var keys := DistinctKeys(acts);
    RowsCarryKeys(acts, keys, ref, threshold, store);
    var rows := FeatureRows(acts, keys, ref, threshold, store);
    forall r | r in rows
      ensures exists a :: a in acts && KeyOf(a) == RowKey(r)
      ensures r == BuildFeaturesForPlayer(acts, r.playerId, r.platform, ref, threshold, store)
    {
      var i :| 0 <= i < |rows| && rows[i] == r;
      RowOfKey(acts, keys, ref, threshold, store, i);
    }
    forall a | a in acts
      ensures exists r :: r in rows && RowKey(r) == KeyOf(a)
    {
      KeyHasRow(acts, keys, ref, threshold, store, KeyOf(a));
    }
  }

  /** Row `i` carries key `i`, which is one of the keys, and is that key's row. */
  lemma RowOfKey(acts: seq<Activity>, keys: seq<PlayerKey>, ref: int, threshold: int, store: RawStore, i: int)
    requires 0 <= i < |keys|
    ensures var r := FeatureRows(acts, keys, ref, threshold, store)[i];
      RowKey(r) in keys && r == BuildFeaturesForPlayer(acts, r.playerId, r.platform, ref, threshold, store)
  {
    RowsCarryKeys(acts, keys, ref, threshold, store);
  }

  lemma KeyHasRow(acts: seq<Activity>, keys: seq<PlayerKey>, ref: int, threshold: int, store: RawStore, k: PlayerKey)
    requires k in keys
    ensures exists r :: r in FeatureRows(acts, keys, ref, threshold, store) && RowKey(r) == k
  {
    var rows := FeatureRows(acts, keys, ref, threshold, store);
    RowsCarryKeys(acts, keys, ref, threshold, store);
    var i :| 0 <= i < |keys| && keys[i] == k;
    assert rows[i] in rows;
  }

  /** A key that some record carries selects a non-empty list of records. */
  lemma KeyedRecordsNonEmpty(acts: seq<Activity>, a: Activity)
    requires a in acts
    ensures |OfPlayer(acts, a.playerId, a.platform)| > 0
  {
    assert a in OfPlayer(acts, a.playerId, a.platform);
  }

  /** `build_all_features`: load and standardise every platform's records,
      then build one row per distinct key, reading the clock once (`now`)
      for both the missing timestamps and the reference instant. The table
      is empty when nothing was loaded; otherwise its keys are exactly the
      loaded keys, each once, and no row takes the no-record path. */
  function BuildAllFeatures(store: RawStore, now: int, threshold: int): (rows: seq<PlayerFeatures>)
    ensures LoadAllActivities(store, now) == [] ==> rows == []
    ensures forall a :: a in LoadAllActivities(store, now) ==> exists r :: r in rows && RowKey(r) == KeyOf(a)
    ensures forall r :: r in rows ==> exists a :: a in LoadAllActivities(store, now) && KeyOf(a) == RowKey(r)
    ensures forall i, j :: 0 <= i < j < |rows| ==> RowKey(rows[i]) != RowKey(rows[j])
    ensures forall r :: r in rows ==>
      r == BuildFeaturesForPlayer(LoadAllActivities(store, now), r.playerId, r.platform, now, threshold, store)
      && |OfPlayer(LoadAllActivities(store, now), r.playerId, r.platform)| > 0
  {
    var acts := LoadAllActivities(store, now);
    if |acts| == 0 then []
    else
      TableOfKeys(acts, now, threshold, store);
      var rows := FeatureRows(acts, DistinctKeys(acts), now, threshold, store);
      assert forall r :: r in rows ==> |OfPlayer(acts, r.playerId, r.platform)| > 0 by {
        forall r | r in rows ensures |OfPlayer(acts, r.playerId, r.platform)| > 0 {
          var a :| a in acts && KeyOf(a) == RowKey(r);
          KeyedRecordsNonEmpty(acts, a);
        }
      }
      rows
  }

  /** Row `i` is the row of key `i`. */
  lemma RowsCarryKeys(acts: seq<Activity>, keys: seq<PlayerKey>, ref: int, threshold: int, store: RawStore)
    ensures var rows := FeatureRows(acts, keys, ref, threshold, store);
      forall i :: 0 <= i < |rows| ==> RowKey(rows[i]) == keys[i]
  {
  }

  /** A row built under one key order is built under any order holding the same key. */
  lemma RowUnderOtherOrder(acts: seq<Activity>, keys: seq<PlayerKey>, keys': seq<PlayerKey>, ref: int,
                           threshold: int, store: RawStore, i: int)
    requires 0 <= i < |keys| && keys[i] in keys'
    ensures FeatureRows(acts, keys, ref, threshold, store)[i] in FeatureRows(acts, keys', ref, threshold, store)
  {
    var rows' := FeatureRows(acts, keys', ref, threshold, store);
    var j :| 0 <= j < |keys'| && keys'[j] == keys[i];
    assert rows'[j] == FeatureRows(acts, keys, ref, threshold, store)[i];
  }

  /** The row set does not depend on the order the distinct keys come in. */
  lemma RowsIgnoreKeyOrder(acts: seq<Activity>, keys: seq<PlayerKey>, keys': seq<PlayerKey>, ref: int,
                           threshold: int, store: RawStore)
    requires forall k :: k in keys <==> k in keys'
    ensures forall r :: r in FeatureRows(acts, keys, ref, threshold, store)
                        <==> r in FeatureRows(acts, keys', ref, threshold, store)
  {
    var rows, rows' := FeatureRows(acts, keys, ref, threshold, store), FeatureRows(acts, keys', ref, threshold, store);
    forall r | r in rows ensures r in rows' {
      var i :| 0 <= i < |rows| && rows[i] == r;
      RowUnderOtherOrder(acts, keys, keys', ref, threshold, store, i);
    }
    forall r | r in rows' ensures r in rows {
      var j :| 0 <= j < |rows'| && rows'[j] == r;
      RowUnderOtherOrder(acts, keys', keys, ref, threshold, store, j);
    }
  }
}

=== FILE: engineer.dfy ===
/** Per-player feature calculators: window counts, session gaps, trends,
    performance, peers, the engagement score and the churn label. Every
    calculator takes the full activity list and selects the player's own
    records; `ref` is the reference instant the windows end at. */
module Engineer {
  import opened Wrappers
  import opened Schema
  import opened RawData
  import opened Rounding
  import opened Timeline

  // ---------------------------------------------------------------- Selections

  /** The records of one `(player_id, platform)` key, in input order. */
  function OfPlayer(acts: seq<Activity>, playerId: string, platform: string): (r: seq<Activity>)
    ensures forall a :: a in r <==> a in acts && a.playerId == playerId && a.platform == platform
    ensures |r| <= |acts|
  {
    if |acts| == 0 then []
    else
      var rest := OfPlayer(acts[1..], playerId, platform);
      assert forall a :: a in acts <==> a == acts[0] || a in acts[1..];
      assert acts == [acts[0]] + acts[1..];
      if acts[0].playerId == playerId && acts[0].platform == platform then [acts[0]] + rest else rest
  }

  /** The start of a window of `days` days ending at `ref`. */
  function Cutoff(ref: int, days: int): int {
    ref - days * DayMs
  }

  /** The records at or after `cutoff`. The window has no upper end: games
      after the reference instant are counted too. */
  function Since(acts: seq<Activity>, cutoff: int): (r: seq<Activity>)
    ensures forall a :: a in r <==> a in acts && a.timestamp >= cutoff
    ensures |r| <= |acts|
  {
    if |acts| == 0 then []
    else
      var rest := Since(acts[1..], cutoff);
      assert forall a :: a in acts <==> a == acts[0] || a in acts[1..];
      assert acts == [acts[0]] + acts[1..];
      if acts[0].timestamp >= cutoff then [acts[0]] + rest else rest
  }

  /** The records at or before `cutoff`. */
  function AtOrBefore(acts: seq<Activity>, cutoff: int): (r: seq<Activity>)
    ensures forall a :: a in r <==> a in acts && a.timestamp <= cutoff
  {
    if |acts| == 0 then []
    else
      var rest := AtOrBefore(acts[1..], cutoff);
      assert forall a :: a in acts <==> a == acts[0] || a in acts[1..];
      assert acts == [acts[0]] + acts[1..];
      if acts[0].timestamp <= cutoff then [acts[0]] + rest else rest
  }

  /** The records that carry a rating. */
  function RatedOnly(acts: seq<Activity>): (r: seq<Activity>)
    ensures forall a :: a in r <==> a in acts && a.rating.Some?
  {
    if |acts| == 0 then []
    else
      var rest := RatedOnly(acts[1..]);
      assert forall a :: a in acts <==> a == acts[0] || a in acts[1..];
      assert acts == [acts[0]] + acts[1..];
      if acts[0].rating.Some? then [acts[0]] + rest else rest
  }

  /** Each selector keeps every selected record as often as the input holds
      it and drops the others entirely: a filter, not a deduplication. */
  lemma {:induction false} OfPlayerMultiplicity(acts: seq<Activity>, playerId: string, platform: string)
    ensures forall a :: multiset(OfPlayer(acts, playerId, platform))[a]
                        == if a.playerId == playerId && a.platform == platform then multiset(acts)[a] else 0
  {
    if |acts| > 0 {
      OfPlayerMultiplicity(acts[1..], playerId, platform);
      assert acts == [acts[0]] + acts[1..];
    }
  }

  lemma {:induction false} SinceMultiplicity(acts: seq<Activity>, cutoff: int)
    ensures forall a :: multiset(Since(acts, cutoff))[a] == if a.timestamp >= cutoff then multiset(acts)[a] else 0
  {
    if |acts| > 0 {
      SinceMultiplicity(acts[1..], cutoff);
      assert acts == [acts[0]] + acts[1..];
    }
  }

  lemma {:induction false} AtOrBeforeMultiplicity(acts: seq<Activity>, cutoff: int)
    ensures forall a :: multiset(AtOrBefore(acts, cutoff))[a] == if a.timestamp <= cutoff then multiset(acts)[a] else 0
  {
    if |acts| > 0 {
      AtOrBeforeMultiplicity(acts[1..], cutoff);
      assert acts == [acts[0]] + acts[1..];
    }
  }

  lemma {:induction false} RatedOnlyMultiplicity(acts: seq<Activity>)
    ensures forall a :: multiset(RatedOnly(acts))[a] == if a.rating.Some? then multiset(acts)[a] else 0
  {
    if |acts| > 0 {
      RatedOnlyMultiplicity(acts[1..]);
      assert acts == [acts[0]] + acts[1..];
    }
  }

  /** The number of won games. */
  function WinCount(acts: seq<Activity>): (n: nat)
    ensures n <= |acts|
    ensures n == 0 <==> forall a :: a in acts ==> a.result != Win
    ensures n == |acts| <==> forall a :: a in acts ==> a.result == Win
  {
    if |acts| == 0 then 0 else (if acts[0].result == Win then 1 else 0) + WinCount(acts[1..])
  }

  function DurationTotal(acts: seq<Activity>): int {
    if |acts| == 0 then 0 else acts[0].durationSeconds + DurationTotal(acts[1..])
  }

  function Hours(acts: seq<Activity>): real {
    DurationTotal(acts) as real / 3600.0
  }

  /** The UTC calendar day of a timestamp, as a day number since the epoch. */
  function DayOf(timestamp: int): int {
    timestamp / DayMs
  }

  /** The distinct calendar days on which the records were played. */
  function PlayDays(acts: seq<Activity>): (days: set<int>)
    ensures |days| <= |acts|
    ensures |acts| > 0 ==> |days| >= 1
    ensures days == set a | a in acts :: DayOf(a.timestamp)
  {
    if |acts| == 0 then {}
    else
      var rest := PlayDays(acts[1..]);
      assert forall a :: a in acts ==> a == acts[0] || a in acts[1..];
      assert |{DayOf(acts[0].timestamp)} + rest| <= 1 + |rest|;
      {DayOf(acts[0].timestamp)} + rest
  }

  /** A span of milliseconds in (fractional) days. */
  function MsToDays(ms: int): real {
    ms as real / DayMs as real
  }

  // ---------------------------------------------------------------- Time windows

  datatype WindowCounts = WindowCounts(games: nat, playtimeHours: real, avgDailySessions: real)

  /** The window-counter fields of a snapshot, and the longest gap in the 30-day window. */
  datatype ActivityWindows = ActivityWindows(
    w7: WindowCounts, w14: WindowCounts, w30: WindowCounts, maxGapDays30d: real)

  /** `max_gap_days_30d` when the 30-day window holds fewer than two games. */
  const NoGapSentinel: real := 30.0

  /** `_empty_features`: the window fields of a key without any record. */
  const EmptyWindows: ActivityWindows :=
    ActivityWindows(WindowCounts(0, 0.0, 0.0), WindowCounts(0, 0.0, 0.0), WindowCounts(0, 0.0, 0.0), NoGapSentinel)

  /** At least one day in a window of at most 1000 days is at least 0.001 per day. */
  lemma RateScale(n: nat, days: nat)
    requires n >= 1 && 1 <= days <= Thousandths
    ensures Scale(n as real / days as real, Thousandths) >= 1.0
  {
    assert n as real / days as real >= 1.0 / days as real;
    assert (1.0 / days as real) * Thousandths as real >= 1.0;
  }

  /** Distinct play days per window day (3 decimals); 0 for an empty window. */
  function SessionRate(window: seq<Activity>, days: nat): (rate: real)
    requires days == 7 || days == 14 || days == 30
    ensures |window| > 0 ==> rate == Round(|PlayDays(window)| as real / days as real, Thousandths)
    ensures |window| == 0 ==> rate == 0.0
    ensures rate >= 0.0
    ensures rate > 0.0 <==> |window| > 0
  {
    if |window| > 0 then
      RateScale(|PlayDays(window)|, days);
      RoundPositive(|PlayDays(window)| as real / days as real, Thousandths);
      Round(|PlayDays(window)| as real / days as real, Thousandths)
    else 0.0
  }

  /** Count, playtime (hours, 2 decimals) and distinct-day rate (3 decimals) over the last `days` days. */
  function WindowStats(player: seq<Activity>, ref: int, days: nat): (w: WindowCounts)
    requires days == 7 || days == 14 || days == 30
    ensures w.games == |Since(player, Cutoff(ref, days))|
    ensures w.playtimeHours == Round(Hours(Since(player, Cutoff(ref, days))), Hundredths)
    ensures w.avgDailySessions == SessionRate(Since(player, Cutoff(ref, days)), days)
  {
    var window := Since(player, Cutoff(ref, days));
    WindowCounts(|window|, Round(Hours(window), Hundredths), SessionRate(window, days))
  }

  /** The time between the `i`-th and the next record, in milliseconds. */
  function Step(s: seq<Activity>, i: int): int
    requires 0 <= i < |s| - 1
  {
    s[i + 1].timestamp - s[i].timestamp
  }

  /** The largest difference between consecutive timestamps. */
  function MaxStep(s: seq<Activity>): (m: int)
    requires |s| >= 2
    ensures forall i :: 0 <= i < |s| - 1 ==> Step(s, i) <= m
    ensures exists i :: 0 <= i < |s| - 1 && Step(s, i) == m
  {
    var first := Step(s, 0);
    if |s| == 2 then first
    else
      var rest := MaxStep(s[1..]);
      assert forall i :: 1 <= i < |s| - 1 ==> Step(s, i) == Step(s[1..], i - 1);
      assert forall j :: 0 <= j < |s| - 2 ==> Step(s[1..], j) == Step(s, j + 1);
      if first >= rest then first else rest
  }

  /** `max_gap_days_30d`: the longest gap, in days, between consecutive games
      of the 30-day window in time order (2 decimals); the sentinel when the
      window holds fewer than two games. */
  function MaxGapDays(player: seq<Activity>, ref: int): (g: real)
    ensures |Since(player, Cutoff(ref, 30))| < 2 ==> g == NoGapSentinel
    ensures |Since(player, Cutoff(ref, 30))| >= 2 ==>
      g == Round(MsToDays(MaxStep(SortByTime(Since(player, Cutoff(ref, 30))))), Hundredths)
    ensures g >= 0.0
  {
    var recent := SortByTime(Since(player, Cutoff(ref, 30)));
    if |recent| >= 2 then
      var step := MaxStep(recent);
      assert step >= 0 by {
        assert recent[1].timestamp - recent[0].timestamp >= 0;
      }
      RoundNonNegative(MsToDays(step), Hundredths);
      Round(MsToDays(step), Hundredths)
    else NoGapSentinel
  }

  /** The `i`-th consecutive gap of `s` in days, rounded like the maximum gap. */
  function RoundedGap(s: seq<Activity>, i: int): real
    requires 0 <= i < |s| - 1
  {
    Round(MsToDays(Step(s, i)), Hundredths)
  }

  /** Rounding to days keeps the maximum: every consecutive step, rounded,
      is at most the rounded largest step ... */
  lemma RoundedStepsBelow(s: seq<Activity>)
    requires |s| >= 2
    ensures forall i :: 0 <= i < |s| - 1 ==> RoundedGap(s, i) <= Round(MsToDays(MaxStep(s)), Hundredths)
  {
    var m := MaxStep(s);
    forall i | 0 <= i < |s| - 1
      ensures RoundedGap(s, i) <= Round(MsToDays(m), Hundredths)
    {
      RoundMonotone(MsToDays(Step(s, i)), MsToDays(m), Hundredths);
    }
  }

  /** ... and one of them equals it. */
  lemma RoundedStepAttained(s: seq<Activity>)
    requires |s| >= 2
    ensures exists i :: 0 <= i < |s| - 1 && RoundedGap(s, i) == Round(MsToDays(MaxStep(s)), Hundredths)
  {
    var m := MaxStep(s);
    var k :| 0 <= k < |s| - 1 && Step(s, k) == m;
    assert RoundedGap(s, k) == Round(MsToDays(m), Hundredths);
  }

  /** The reported gap is the largest of the rounded consecutive gaps of the
      time-ordered 30-day window: every such gap is at most it, and one
      equals it. */
  lemma MaxGapBoundsEveryGap(player: seq<Activity>, ref: int)
    requires |Since(player, Cutoff(ref, 30))| >= 2
    ensures var s := SortByTime(Since(player, Cutoff(ref, 30)));
      forall i :: 0 <= i < |s| - 1 ==> RoundedGap(s, i) <= MaxGapDays(player, ref)
    ensures var s := SortByTime(Since(player, Cutoff(ref, 30)));
      exists i :: 0 <= i < |s| - 1 && RoundedGap(s, i) == MaxGapDays(player, ref)
  {
    RoundedStepsBelow(SortByTime(Since(player, Cutoff(ref, 30))));
    RoundedStepAttained(SortByTime(Since(player, Cutoff(ref, 30))));
  }

  /** `compute_time_window_features`: the window counters of one key; a key
      with no record at all takes the separate `_empty_features` path. */
  function TimeWindowFeatures(acts: seq<Activity>, playerId: string, platform: string, ref: int): (w: ActivityWindows)
    ensures |OfPlayer(acts, playerId, platform)| == 0 ==> w == EmptyWindows
    ensures w.w7.games == |Since(OfPlayer(acts, playerId, platform), Cutoff(ref, 7))|
    ensures w.w14.games == |Since(OfPlayer(acts, playerId, platform), Cutoff(ref, 14))|
    ensures w.w30.games == |Since(OfPlayer(acts, playerId, platform), Cutoff(ref, 30))|
    ensures |OfPlayer(acts, playerId, platform)| > 0 ==>
      var player := OfPlayer(acts, playerId, platform);
      w == ActivityWindows(WindowStats(player, ref, 7), WindowStats(player, ref, 14), WindowStats(player, ref, 30),
                           MaxGapDays(player, ref))
  {
    var player := OfPlayer(acts, playerId, platform);
    if |player| == 0 then EmptyWindows
    else ActivityWindows(WindowStats(player, ref, 7), WindowStats(player, ref, 14), WindowStats(player, ref, 30),
                         MaxGapDays(player, ref))
  }

  /** The early return changes nothing observable: the general computation on
      a key without records yields the same fields as `_empty_features`. */
  lemma EmptyWindowsAgreeWithFiltering(ref: int)
    ensures ActivityWindows(WindowStats([], ref, 7), WindowStats([], ref, 14), WindowStats([], ref, 30),
                            MaxGapDays([], ref)) == EmptyWindows
  {
    RoundWhole(0, Hundredths);
    assert Hours([]) == 0 as real;
  }

  /** A narrower window (later cutoff) holds no more games and, when
      durations are non-negative, no more playtime. */
  lemma {:induction false} SinceNested(s: seq<Activity>, narrow: int, wide: int)
    requires wide <= narrow
    ensures |Since(s, narrow)| <= |Since(s, wide)|
    ensures (forall a :: a in s ==> a.durationSeconds >= 0) ==>
      DurationTotal(Since(s, narrow)) <= DurationTotal(Since(s, wide))
  {
    if |s| > 0 {
      SinceNested(s[1..], narrow, wide);
      assert forall a :: a in s[1..] ==> a in s;
    }
  }

  predicate NonNegativeDurations(acts: seq<Activity>) {
    forall a :: a in acts ==> a.durationSeconds >= 0
  }

  lemma {:induction false} DurationTotalNonNegative(s: seq<Activity>)
    requires NonNegativeDurations(s)
    ensures DurationTotal(s) >= 0
  {
    if |s| > 0 {
      assert forall a :: a in s[1..] ==> a in s;
      DurationTotalNonNegative(s[1..]);
    }
  }

  lemma HoursMonotone(a: seq<Activity>, b: seq<Activity>)
    requires DurationTotal(a) <= DurationTotal(b)
    ensures Hours(a) <= Hours(b)
  {
  }

  /** `games_7d <= games_14d <= games_30d`; with non-negative durations the
      same order holds for playtime, and playtime is non-negative. */
  lemma WindowContainment(acts: seq<Activity>, playerId: string, platform: string, ref: int)
    ensures var w := TimeWindowFeatures(acts, playerId, platform, ref);
      w.w7.games <= w.w14.games <= w.w30.games
    ensures NonNegativeDurations(acts) ==>
      var w := TimeWindowFeatures(acts, playerId, platform, ref);
      0.0 <= w.w7.playtimeHours <= w.w14.playtimeHours <= w.w30.playtimeHours
  {
    var player := OfPlayer(acts, playerId, platform);
    SinceNested(player, Cutoff(ref, 7), Cutoff(ref, 14));
    SinceNested(player, Cutoff(ref, 14), Cutoff(ref, 30));
    if NonNegativeDurations(acts) && |player| > 0 {
      assert NonNegativeDurations(player);
      var s7, s14, s30 := Since(player, Cutoff(ref, 7)), Since(player, Cutoff(ref, 14)), Since(player, Cutoff(ref, 30));
      assert NonNegativeDurations(s7);
      DurationTotalNonNegative(s7);
      HoursMonotone([], s7);
      HoursMonotone(s7, s14);
      HoursMonotone(s14, s30);
      RoundNonNegative(Hours(s7), Hundredths);
      RoundMonotone(Hours(s7), Hours(s14), Hundredths);
      RoundMonotone(Hours(s14), Hours(s30), Hundredths);
    }
  }

  /** The session rate never exceeds the game rate: a day counts once
      however many games were played on it. */
  lemma SessionRateAtMostGameRate(window: seq<Activity>, days: nat)
    requires days == 7 || days == 14 || days == 30
    ensures SessionRate(window, days) <= Round(|window| as real / days as real, Thousandths)
  {
    if |window| > 0 {
      RoundMonotone(|PlayDays(window)| as real / days as real, |window| as real / days as real, Thousandths);
    } else {
      RoundWhole(0, Thousandths);
      assert |window| as real / days as real == 0 as real;
    }
  }

  // ---------------------------------------------------------------- Trend

  datatype Trend = Trend(games: real, playtime: real)

  function Ratio(part: real, whole: real): real
    requires whole > 0.0
  {
    part / whole
  }

  lemma RatioWithinUnit(part: real, whole: real)
    requires 0.0 <= part <= whole && whole > 0.0
    ensures 0.0 <= Ratio(part, whole) <= 1.0
  {
  }

  lemma RoundedRatioWithinUnit(part: real, whole: real)
    requires whole > 0.0
    ensures 0.0 <= part <= whole ==> 0.0 <= Round(Ratio(part, whole), Thousandths) <= 1.0
  {
    if 0.0 <= part <= whole {
      RatioWithinUnit(part, whole);
      RoundWithin(Ratio(part, whole), 0, 1, Thousandths);
    }
  }

  /** `compute_trend_features`: 7-day over 14-day games and playtime (3
      decimals), exactly 0 when the 14-day figure is not positive. Given
      nested windows both ratios lie in [0, 1]. */
  function TrendFeatures(w: ActivityWindows): (t: Trend)
    ensures w.w14.games == 0 ==> t.games == 0.0
    ensures w.w14.games > 0 ==> t.games == Round(Ratio(w.w7.games as real, w.w14.games as real), Thousandths)
    ensures w.w14.playtimeHours <= 0.0 ==> t.playtime == 0.0
    ensures w.w14.playtimeHours > 0.0 ==> t.playtime == Round(Ratio(w.w7.playtimeHours, w.w14.playtimeHours), Thousandths)
    ensures w.w7.games <= w.w14.games ==> 0.0 <= t.games <= 1.0
    ensures 0.0 <= w.w7.playtimeHours <= w.w14.playtimeHours ==> 0.0 <= t.playtime <= 1.0
  {
    var games :=
      if w.w14.games > 0 then
        RoundedRatioWithinUnit(w.w7.games as real, w.w14.games as real);
        Round(Ratio(w.w7.games as real, w.w14.games as real), Thousandths)
      else 0.0;
    var playtime :=
      if w.w14.playtimeHours > 0.0 then
        RoundedRatioWithinUnit(w.w7.playtimeHours, w.w14.playtimeHours);
        Round(Ratio(w.w7.playtimeHours, w.w14.playtimeHours), Thousandths)
      else 0.0;
    Trend(games, playtime)
  }

  /** Equal positive 7- and 14-day counts give a games trend of exactly 1;
      no game in the last 7 days gives 0. */
  lemma TrendOfNestedCounts(w: ActivityWindows)
    ensures w.w7.games == w.w14.games > 0 ==> TrendFeatures(w).games == 1.0
    ensures w.w7.games == 0 ==> TrendFeatures(w).games == 0.0
  {
    if w.w14.games > 0 {
      if w.w7.games == w.w14.games {
        RatioSelf(w.w14.games as real);
        RoundWhole(1, Thousandths);
      }
      if w.w7.games == 0 {
        assert Ratio(0.0, w.w14.games as real) == 0.0;
        RoundWhole(0, Thousandths);
      }
    }
  }

  /** A window reaching back before every record keeps them all. */
  lemma {:induction false} SinceKeepsAll(s: seq<Activity>, cutoff: int)
    requires forall a :: a in s ==> a.timestamp >= cutoff
    ensures Since(s, cutoff) == s
  {
    if |s| > 0 {
      assert forall a :: a in s[1..] ==> a in s;
      SinceKeepsAll(s[1..], cutoff);
      assert s == [s[0]] + s[1..];
    }
  }

  /** A player all of whose games fall in the last 7 days has a games trend
      of exactly 1 in their row. */
  lemma RecentPlayerTrendIsOne(acts: seq<Activity>, playerId: string, platform: string, ref: int,
                               threshold: int, store: RawStore)
    requires |OfPlayer(acts, playerId, platform)| > 0
    requires forall a :: a in OfPlayer(acts, playerId, platform) ==> a.timestamp >= Cutoff(ref, 7)
    ensures BuildFeaturesForPlayer(acts, playerId, platform, ref, threshold, store).gamesTrend7dVs14d == 1.0
  {
    var player := OfPlayer(acts, playerId, platform);
    SinceKeepsAll(player, Cutoff(ref, 7));
    SinceKeepsAll(player, Cutoff(ref, 14));
    var w := TimeWindowFeatures(acts, playerId, platform, ref);
    TrendOfNestedCounts(w);
  }

  // ---------------------------------------------------------------- Performance

  datatype Performance = Performance(winRate7d: real, winRate30d: real, ratingCurrent: Option<int>, ratingChange30d: int)

  /** Wins over all games of the window (3 decimals); 0 for an empty window. */
  function WinRate(window: seq<Activity>): (r: real)
    ensures 0.0 <= r <= 1.0
    ensures |window| == 0 ==> r == 0.0
    ensures |window| > 0 ==> r == Round(Ratio(WinCount(window) as real, |window| as real), Thousandths)
  {
    if |window| > 0 then
      RoundedRatioWithinUnit(WinCount(window) as real, |window| as real);
      Round(Ratio(WinCount(window) as real, |window| as real), Thousandths)
    else 0.0
  }

  /** A window of wins only has win rate 1. */
  lemma WinRateAllWins(window: seq<Activity>)
    requires |window| > 0 && forall a :: a in window ==> a.result == Win
    ensures WinRate(window) == 1.0
  {
    RatioSelf(|window| as real);
    RoundWhole(1, Thousandths);
  }

  lemma RatioSelf(x: real)
    requires x > 0.0
    ensures Ratio(x, x) == 1.0
  {
  }

  /** Losses, draws and unknown results count in the denominator only: a
      window without a win has win rate 0. */
  lemma WinRateNoWins(window: seq<Activity>)
    requires forall a :: a in window ==> a.result != Win
    ensures WinRate(window) == 0.0
  {
    if |window| > 0 {
      assert Ratio(0.0, |window| as real) == 0.0;
      RoundWhole(0, Thousandths);
    }
  }

  /** Wins add up over concatenated windows. */
  lemma {:induction false} WinCountAppend(a: seq<Activity>, b: seq<Activity>)
    ensures WinCount(a + b) == WinCount(a) + WinCount(b)
  {
    if |a| == 0 {
      assert a + b == b;
    } else {
      assert (a + b)[1..] == a[1..] + b;
      WinCountAppend(a[1..], b);
    }
  }

  /** One win and one loss give a win rate of one half. */
  lemma WinRateOneOfTwo(won: Activity, lost: Activity)
    requires won.result == Win && lost.result == Loss
    ensures WinRate([won, lost]) == 0.5
  {
    assert WinCount([won, lost]) == 1 by {
      assert [won, lost][1..] == [lost];
    }
    assert Scale(Ratio(1.0, 2.0), Thousandths) == 500.0;
    assert RoundHalfEven(500.0) == 500;
  }

  /** The rating of the latest rated record (by timestamp), if any record is rated. */
  function LatestRating(acts: seq<Activity>): (r: Option<int>)
    ensures r.None? <==> forall a :: a in acts ==> a.rating.None?
    ensures r.Some? ==> exists a :: (a in acts && a.rating == r
                                     && forall b :: b in acts && b.rating.Some? ==> b.timestamp <= a.timestamp)
  {
    var rated := SortByTime(RatedOnly(acts));
    if |rated| > 0 then
      var last := rated[|rated| - 1];
      assert last in multiset(RatedOnly(acts));
      assert forall b :: b in acts && b.rating.Some? ==> b in multiset(rated);
      LastIsLatest(rated);
      last.rating
    else
      assert forall a :: a in acts && a.rating.Some? ==> a in multiset(rated);
      None
  }

  /** `compute_performance_features`. `rating_change_30d` compares the current
      rating with the latest rating at or before the 30-day cutoff, and is 0
      when there is none. */
  function PerformanceFeatures(acts: seq<Activity>, playerId: string, platform: string, ref: int): (p: Performance)
    ensures p.winRate7d == WinRate(Since(OfPlayer(acts, playerId, platform), Cutoff(ref, 7)))
    ensures p.winRate30d == WinRate(Since(OfPlayer(acts, playerId, platform), Cutoff(ref, 30)))
    ensures 0.0 <= p.winRate7d <= 1.0 && 0.0 <= p.winRate30d <= 1.0
    ensures p.ratingCurrent == LatestRating(OfPlayer(acts, playerId, platform))
    ensures p.ratingCurrent.Some? && LatestRating(AtOrBefore(OfPlayer(acts, playerId, platform), Cutoff(ref, 30))).Some? ==>
      p.ratingChange30d == p.ratingCurrent.value
                           - LatestRating(AtOrBefore(OfPlayer(acts, playerId, platform), Cutoff(ref, 30))).value
    ensures (forall a :: a in OfPlayer(acts, playerId, platform) && a.timestamp <= Cutoff(ref, 30) ==> a.rating.None?)
            ==> p.ratingChange30d == 0
    ensures p.ratingCurrent.None? ==> p.ratingChange30d == 0
  {
    var player := OfPlayer(acts, playerId, platform);
    var current := LatestRating(player);
    var change :=
      if current.None? then 0
      else match LatestRating(AtOrBefore(player, Cutoff(ref, 30)))
        case None => 0
        case Some(earlier) => current.value - earlier;
    Performance(WinRate(Since(player, Cutoff(ref, 7))), WinRate(Since(player, Cutoff(ref, 30))), current, change)
  }

  /** With one rated game at or before the 30-day cutoff and a later rated
      game, the rating change is the later rating minus the earlier one. */
  lemma RatingChangeBetweenTwoGames(before: Activity, after: Activity, ref: int)
    requires before.playerId == after.playerId && before.platform == after.platform
    requires before.rating.Some? && after.rating.Some?
    requires before.timestamp <= Cutoff(ref, 30) < after.timestamp
    ensures PerformanceFeatures([before, after], before.playerId, before.platform, ref).ratingChange30d
            == after.rating.value - before.rating.value
  {
    var acts := [before, after];
    assert OfPlayer(acts, before.playerId, before.platform) == acts;
    assert LatestRating(acts) == after.rating;
    assert acts[1..] == [after];
    assert AtOrBefore([after], Cutoff(ref, 30)) == [];
    assert AtOrBefore(acts, Cutoff(ref, 30)) == [before];
    assert LatestRating([before]) == before.rating;
  }

  // ---------------------------------------------------------------- Social

  datatype Social = Social(uniquePeers: int, peerGames: int)

  function PeerGamesTotal(peers: seq<Peer>): int {
    if |peers| == 0 then 0 else peers[0].games.GetOr(0) + PeerGamesTotal(peers[1..])
  }

  /** `compute_social_features`: the number of peers and the games played
      with them; both 0 when the peers file does not exist. */
  function SocialFeatures(peersFile: Option<seq<Peer>>): (s: Social)
    ensures peersFile.None? ==> s == Social(0, 0)
    ensures peersFile.Some? ==> s.uniquePeers == |peersFile.value| && s.peerGames == PeerGamesTotal(peersFile.value)
    ensures s.uniquePeers >= 0
  {
    match peersFile
    case None => Social(0, 0)
    case Some(peers) => Social(|peers|, PeerGamesTotal(peers))
  }

  /** With no negative game count in the file, the peer games total is
      non-negative. */
  lemma {:induction false} PeerGamesTotalNonNegative(peers: seq<Peer>)
    requires forall p :: p in peers ==> p.games.GetOr(0) >= 0
    ensures PeerGamesTotal(peers) >= 0
  {
    if |peers| > 0 {
      assert forall p :: p in peers[1..] ==> p in peers;
      PeerGamesTotalNonNegative(peers[1..]);
    }
  }

  /** Every listed peer was played with at least once, so the peer games
      total is at least the number of peers. */
  lemma {:induction false} PeerGamesAtLeastPeers(peers: seq<Peer>)
    requires forall p :: p in peers ==> p.games.GetOr(0) >= 1
    ensures PeerGamesTotal(peers) >= |peers|
  {
    if |peers| > 0 {
      assert forall p :: p in peers[1..] ==> p in peers;
      PeerGamesAtLeastPeers(peers[1..]);
    }
  }
  // ---------------------------------------------------------------- Engagement

  function Min(a: real, b: real): (m: real)
    ensures m <= a && m <= b && (m == a || m == b)
  {
    if a <= b then a else b
  }

  /** The five capped components of the engagement score, before the
      overall clamp: volume (30), session frequency (20), trend (20), win
      rate (15, uncapped) and peers (15). */
  function RawEngagement(games30d: int, avgSessions30d: real, gamesTrend: real, winRate30d: real, uniquePeers: int): real {
    Min(games30d as real / 2.0, 30.0) + Min(avgSessions30d * 30.0, 20.0) + Min(gamesTrend * 20.0, 20.0)
      + winRate30d * 15.0 + Min(uniquePeers as real / 3.0, 15.0)
  }

  /** `compute_engagement_score`: the component sum clamped to 100, rounded
      to 2 decimals. It never exceeds 100 and is non-negative when its
      inputs are. */
  function EngagementScore(games30d: int, avgSessions30d: real, gamesTrend: real, winRate30d: real, uniquePeers: int): (e: real)
    ensures e <= 100.0
    ensures games30d >= 0 && avgSessions30d >= 0.0 && gamesTrend >= 0.0 && winRate30d >= 0.0 && uniquePeers >= 0
            ==> e >= 0.0
  {
    var clamped := Min(RawEngagement(games30d, avgSessions30d, gamesTrend, winRate30d, uniquePeers), 100.0);
    RoundMonotone(clamped, 100 as real, Hundredths);
    RoundWhole(100, Hundredths);
    if clamped >= 0.0 then RoundNonNegative(clamped, Hundredths); Round(clamped, Hundredths)
    else Round(clamped, Hundredths)
  }

  /** More activity on any signal never lowers the score. */
  lemma EngagementMonotone(g: int, avg: real, trend: real, wr: real, peers: int,
                           g': int, avg': real, trend': real, wr': real, peers': int)
    requires g <= g' && avg <= avg' && trend <= trend' && wr <= wr' && peers <= peers'
    ensures EngagementScore(g, avg, trend, wr, peers) <= EngagementScore(g', avg', trend', wr', peers')
  {
    var raw, raw' := RawEngagement(g, avg, trend, wr, peers), RawEngagement(g', avg', trend', wr', peers');
    assert raw <= raw';
    RoundMonotone(Min(raw, 100.0), Min(raw', 100.0), Hundredths);
  }

  /** The component caps add up to exactly 100, so with a win rate of at
      most 1 the overall clamp never bites. */
  lemma EngagementClampInactive(g: int, avg: real, trend: real, wr: real, peers: int)
    requires wr <= 1.0
    ensures EngagementScore(g, avg, trend, wr, peers) == Round(RawEngagement(g, avg, trend, wr, peers), Hundredths)
  {
  }

  /** Every cap reached: 60 games, two thirds of a session a day, a trend
      of 1, only wins and 45 peers give the full 100 points. */
  lemma EngagementFullMarks()
    ensures EngagementScore(60, 2.0 / 3.0, 1.0, 1.0, 45) == 100.0
  {
    assert RawEngagement(60, 2.0 / 3.0, 1.0, 1.0, 45) == 100.0;
    RoundWhole(100, Hundredths);
  }
  // ---------------------------------------------------------------- Churn label

  datatype Churn = Churn(daysSinceLastGame: real, churned: bool)

  /** `days_since_last_game` of a key without any record. */
  const NoActivityDays: real := 999.0

  /** The latest timestamp of a non-empty list. */
  function LatestTimestamp(acts: seq<Activity>): (t: int)
    requires |acts| > 0
    ensures exists a :: a in acts && a.timestamp == t
    ensures forall a :: a in acts ==> a.timestamp <= t
  {
    if |acts| == 1 then acts[0].timestamp
    else
      var rest := LatestTimestamp(acts[1..]);
      assert forall a :: a in acts ==> a == acts[0] || a in acts[1..];
      if acts[0].timestamp >= rest then acts[0].timestamp else rest
  }

  /** Comparing fractional days with a whole-day threshold is comparing
      milliseconds with that many days' worth of milliseconds. */
  lemma DaysAtLeast(ms: int, threshold: int)
    ensures MsToDays(ms) >= threshold as real <==> ms >= threshold * DayMs
  {
    assert MsToDays(ms) * DayMs as real == ms as real;
    assert (threshold * DayMs) as real == threshold as real * DayMs as real;
    if ms >= threshold * DayMs {
      assert ms as real >= threshold as real * DayMs as real;
    }
  }

  /** `compute_churn_label`: a key without records is churned with the 999
      sentinel; otherwise it is churned exactly when every one of its games
      is at least `threshold` days before `ref`, and the stored day count is
      the (unrounded-then-rounded) time since its latest game. */
  function ChurnLabel(acts: seq<Activity>, playerId: string, platform: string, ref: int, threshold: int): (c: Churn)
    ensures |OfPlayer(acts, playerId, platform)| == 0 ==> c == Churn(NoActivityDays, true)
    ensures |OfPlayer(acts, playerId, platform)| > 0 ==>
      (c.churned <==> forall a :: a in OfPlayer(acts, playerId, platform) ==> ref - a.timestamp >= threshold * DayMs)
    ensures |OfPlayer(acts, playerId, platform)| > 0 ==>
      c.daysSinceLastGame == Round(MsToDays(ref - LatestTimestamp(OfPlayer(acts, playerId, platform))), Hundredths)
  {
    var player := OfPlayer(acts, playerId, platform);
    if |player| == 0 then Churn(NoActivityDays, true)
    else
      var last := LatestTimestamp(player);
      var days := MsToDays(ref - last);
      DaysAtLeast(ref - last, threshold);
      AllOldIffLatestOld(player, ref, threshold);
      Churn(Round(days, Hundredths), days >= threshold as real)
  }

  /** Every game is old enough exactly when the latest one is. */
  lemma AllOldIffLatestOld(player: seq<Activity>, ref: int, threshold: int)
    requires |player| > 0
    ensures (forall a :: a in player ==> ref - a.timestamp >= threshold * DayMs)
            <==> ref - LatestTimestamp(player) >= threshold * DayMs
  {
    var t := LatestTimestamp(player);
    var latest :| latest in player && latest.timestamp == t;
  }

  /** The churn flag is decided on the unrounded day count while the stored
      count is rounded: one minute short of 14 days is stored as 14.0 days
      and yet is not churned at a 14-day threshold. */
  lemma ChurnUsesUnroundedDays()
    ensures var acts := [NewActivity("p", ChessCom, 0)];
      ChurnLabel(acts, "p", ChessCom, 14 * DayMs - 60_000, 14) == Churn(14.0, false)
  {
    var acts := [NewActivity("p", ChessCom, 0)];
    var ref := 14 * DayMs - 60_000;
    assert OfPlayer(acts, "p", ChessCom) == acts;
    assert LatestTimestamp(acts) == 0;
    var scaled := Scale(MsToDays(ref), Hundredths);
    assert 1399.5 < scaled < 1400.0;
    assert RoundHalfEven(scaled) == 1400;
    assert Round(MsToDays(ref), Hundredths) == 14.0;
    DaysAtLeast(ref, 14);
  }
  // ---------------------------------------------------------------- One row

  /** The peers file read for an OpenDota account. */
  function PeersFileName(playerId: string): string {
    playerId + "_peers.json"
  }

  /** The social fields of a row: read from the peers file on OpenDota, 0 elsewhere. */
  function RowSocial(platform: string, playerId: string, store: RawStore): (s: Social)
    ensures platform != OpenDota ==> s == Social(0, 0)
    ensures platform == OpenDota ==> s == SocialFeatures(DotaPeersFile(store, PeersFileName(playerId)))
  {
    if platform == OpenDota then SocialFeatures(DotaPeersFile(store, PeersFileName(playerId))) else Social(0, 0)
  }

  /** `build_features_for_player`: the window, trend, performance, social,
      engagement and churn fields of one `(player_id, platform)` key. Each
      row keeps the ordering and range invariants of the feature table. */
  function BuildFeaturesForPlayer(acts: seq<Activity>, playerId: string, platform: string, ref: int,
                                  threshold: int, store: RawStore): (r: PlayerFeatures)
    ensures r.playerId == playerId && r.platform == platform
    ensures r.games7d <= r.games14d <= r.games30d
    ensures r.games30d == |Since(OfPlayer(acts, playerId, platform), Cutoff(ref, 30))|
    ensures 0.0 <= r.gamesTrend7dVs14d <= 1.0
    ensures 0.0 <= r.winRate7d <= 1.0 && 0.0 <= r.winRate30d <= 1.0
    ensures 0.0 <= r.engagementScore <= 100.0
    ensures r.maxGapDays30d >= 0.0
    ensures r.uniquePeers30d >= 0
    ensures platform != OpenDota ==> r.uniquePeers30d == 0 && r.peerGames30d == 0
    ensures r.engagementScore == EngagementScore(r.games30d, r.avgDailySessions30d, r.gamesTrend7dVs14d,
                                                 r.winRate30d, r.uniquePeers30d)
    ensures (r.daysSinceLastGame, r.churned) == (ChurnLabel(acts, playerId, platform, ref, threshold).daysSinceLastGame,
                                                 ChurnLabel(acts, playerId, platform, ref, threshold).churned)
  {
    var w := TimeWindowFeatures(acts, playerId, platform, ref);
    WindowContainment(acts, playerId, platform, ref);
    var t := TrendFeatures(w);
    var p := PerformanceFeatures(acts, playerId, platform, ref);
    var s := RowSocial(platform, playerId, store);
    var c := ChurnLabel(acts, playerId, platform, ref, threshold);
    var e := EngagementScore(w.w30.games, w.w30.avgDailySessions, t.games, p.winRate30d, s.uniquePeers);
    PlayerFeatures(playerId, platform, w.w7.games, w.w14.games, w.w30.games,
                   w.w7.playtimeHours, w.w14.playtimeHours, w.w30.playtimeHours,
                   w.w7.avgDailySessions, w.w14.avgDailySessions, w.w30.avgDailySessions, w.maxGapDays30d,
                   t.games, t.playtime, p.winRate7d, p.winRate30d, p.ratingCurrent, p.ratingChange30d,
                   s.uniquePeers, s.peerGames, e, c.daysSinceLastGame, c.churned)
  }

  /** Every field of a row is the corresponding output of its calculator,
      run on the same records, key and reference instant. */
  lemma RowFieldsFromCalculators(acts: seq<Activity>, playerId: string, platform: string, ref: int,
                                 threshold: int, store: RawStore)
    ensures var r := BuildFeaturesForPlayer(acts, playerId, platform, ref, threshold, store);
      var w := TimeWindowFeatures(acts, playerId, platform, ref);
      && r.games7d == w.w7.games && r.games14d == w.w14.games && r.games30d == w.w30.games
      && r.playtime7dHours == w.w7.playtimeHours && r.playtime14dHours == w.w14.playtimeHours
      && r.playtime30dHours == w.w30.playtimeHours
      && r.avgDailySessions7d == w.w7.avgDailySessions && r.avgDailySessions14d == w.w14.avgDailySessions
      && r.avgDailySessions30d == w.w30.avgDailySessions
      && r.maxGapDays30d == w.maxGapDays30d
      && r.gamesTrend7dVs14d == TrendFeatures(w).games && r.playtimeTrend7dVs14d == TrendFeatures(w).playtime
    ensures var r := BuildFeaturesForPlayer(acts, playerId, platform, ref, threshold, store);
      var p := PerformanceFeatures(acts, playerId, platform, ref);
      && r.winRate7d == p.winRate7d && r.winRate30d == p.winRate30d
      && r.ratingCurrent == p.ratingCurrent && r.ratingChange30d == p.ratingChange30d
    ensures var r := BuildFeaturesForPlayer(acts, playerId, platform, ref, threshold, store);
      r.uniquePeers30d == RowSocial(platform, playerId, store).uniquePeers
      && r.peerGames30d == RowSocial(platform, playerId, store).peerGames
  {
  }

  /** With non-negative durations playtime grows with the window and the
      playtime trend lies in [0, 1]. */
  lemma PlaytimeRowInvariants(acts: seq<Activity>, playerId: string, platform: string, ref: int,
                              threshold: int, store: RawStore)
    requires NonNegativeDurations(acts)
    ensures var r := BuildFeaturesForPlayer(acts, playerId, platform, ref, threshold, store);
      0.0 <= r.playtime7dHours <= r.playtime14dHours <= r.playtime30dHours
      && 0.0 <= r.playtimeTrend7dVs14d <= 1.0
  {
    WindowContainment(acts, playerId, platform, ref);
  }

  /** A key without records outside OpenDota gets the schema defaults except
      for three sentinels: a 30-day maximum gap, 999 days since the last
      game, and churned. */
  lemma EmptyPlayerRow(acts: seq<Activity>, playerId: string, platform: string, ref: int,
                       threshold: int, store: RawStore)
    requires |OfPlayer(acts, playerId, platform)| == 0 && platform != OpenDota
    ensures BuildFeaturesForPlayer(acts, playerId, platform, ref, threshold, store)
         == DefaultFeatures(playerId, platform).(maxGapDays30d := NoGapSentinel,
                                                 daysSinceLastGame := NoActivityDays, churned := true)
  {
    var w := TimeWindowFeatures(acts, playerId, platform, ref);
    assert w == EmptyWindows;
    assert PerformanceFeatures(acts, playerId, platform, ref) == Performance(0.0, 0.0, None, 0);
    assert RawEngagement(0, 0.0, 0.0, 0.0, 0) == 0.0;
    RoundWhole(0, Hundredths);
  }

  /** An OpenDota account without records still reads its peers file, and
      only the peer component contributes to its engagement. */
  lemma EmptyOpenDotaRowUsesPeers(acts: seq<Activity>, playerId: string, ref: int, threshold: int, store: RawStore)
    requires |OfPlayer(acts, playerId, OpenDota)| == 0
    ensures var r := BuildFeaturesForPlayer(acts, playerId, OpenDota, ref, threshold, store);
      var peers := SocialFeatures(DotaPeersFile(store, PeersFileName(playerId)));
      r.uniquePeers30d == peers.uniquePeers && r.peerGames30d == peers.peerGames
      && r.engagementScore == Round(Min(peers.uniquePeers as real / 3.0, 15.0), Hundredths)
  {
    var w := TimeWindowFeatures(acts, playerId, OpenDota, ref);
    assert w == EmptyWindows;
    assert PerformanceFeatures(acts, playerId, OpenDota, ref).winRate30d == 0.0;
  }
}

=== FILE: rawdata.dfy ===
/** Parsed raw files as the collectors leave them on disk, one directory per
    platform. Only the JSON fields the engine reads are kept; a missing key
    and a JSON null are both `None`. */
module RawData {
  import opened Wrappers

  /** One side (`white` or `black`) of a Chess.com game. */
  datatype ChessSide = ChessSide(username: Option<string>, result: Option<string>, rating: Option<int>)

  /** One entry of `<username>_games.json`. `endTime` is in epoch seconds. */
  datatype ChessGame = ChessGame(
    endTime: Option<int>,
    white: Option<ChessSide>,
    black: Option<ChessSide>,
    timeClass: Option<string>)

  /** One entry of `<account_id>_matches.json`. `startTime` is in epoch seconds,
      `duration` in seconds, `gameMode` the numeric mode id. */
  datatype DotaMatch = DotaMatch(
    startTime: Option<int>,
    duration: Option<int>,
    playerSlot: Option<int>,
    radiantWin: Option<bool>,
    gameMode: Option<int>)

  /** One entry of `<account_id>_peers.json`: how many games were played with that peer. */
  datatype Peer = Peer(games: Option<int>)

  datatype RiotParticipant = RiotParticipant(puuid: Option<string>, win: Option<bool>)

  /** The `info` object of a Riot match. `gameCreation` is in epoch milliseconds. */
  datatype RiotInfo = RiotInfo(
    gameCreation: Option<int>,
    gameDuration: Option<int>,
    participants: Option<seq<RiotParticipant>>,
    gameMode: Option<string>)

  /** One entry of `<name>_<tag>_matches.json`. */
  datatype RiotMatch = RiotMatch(info: Option<RiotInfo>)

  /** A member of a JSON object: missing, present as `null`, or present with a value. */
  datatype Member<T> = Absent | Null | Present(value: T)

  /** The content of `<name>_<tag>_account.json`. */
  datatype RiotAccount = RiotAccount(puuid: Member<string>)

  /** A platform directory: the file names a listing shows, and the parsed
      content of each file that exists, keyed by file name. */
  datatype ChessDir = ChessDir(listing: seq<string>, games: map<string, seq<ChessGame>>)
  datatype DotaDir = DotaDir(
    listing: seq<string>,
    matches: map<string, seq<DotaMatch>>,
    peers: map<string, seq<Peer>>)
  datatype RiotDir = RiotDir(
    listing: seq<string>,
    matches: map<string, seq<RiotMatch>>,
    accounts: map<string, RiotAccount>)

  /** The raw data root; a platform directory that does not exist is `None`. */
  datatype RawStore = RawStore(chess: Option<ChessDir>, dota: Option<DotaDir>, riot: Option<RiotDir>)

  function ChessGamesFile(store: RawStore, name: string): Option<seq<ChessGame>> {
    if store.chess.Some? && name in store.chess.value.games then Some(store.chess.value.games[name]) else None
  }

  function DotaMatchesFile(store: RawStore, name: string): Option<seq<DotaMatch>> {
    if store.dota.Some? && name in store.dota.value.matches then Some(store.dota.value.matches[name]) else None
  }

  function DotaPeersFile(store: RawStore, name: string): Option<seq<Peer>> {
    if store.dota.Some? && name in store.dota.value.peers then Some(store.dota.value.peers[name]) else None
  }

  function RiotMatchesFile(store: RawStore, name: string): Option<seq<RiotMatch>> {
    if store.riot.Some? && name in store.riot.value.matches then Some(store.riot.value.matches[name]) else None
  }

  function RiotAccountFile(store: RawStore, name: string): Option<RiotAccount> {
    if store.riot.Some? && name in store.riot.value.accounts then Some(store.riot.value.accounts[name]) else None
  }
}

=== FILE: rounding.dfy ===
/** Python's `round(x, n)` on exact reals: round half to even at `n`
    decimal places, written here with the place value `unit = 10^n`
    (`round(x, 2)` is `Round(x, Hundredths)`). The binary floating-point
    representation the source rounds is not modelled; what the engine relies
    on is that rounding is monotone and keeps whole numbers fixed. */
module Rounding {

  /** Place values for `round(x, 2)` and `round(x, 3)`. */
  const Hundredths: nat := 100
  const Thousandths: nat := 1000

  /** The nearest integer to `x`; on a tie, the even one. */
  function RoundHalfEven(x: real): (r: int)
    ensures x - 0.5 <= r as real <= x + 0.5
  {
    var f := x.Floor;
    var frac := x - f as real;
    if frac < 0.5 then f
    else if frac > 0.5 then f + 1
    else if f % 2 == 0 then f
    else f + 1
  }

  /** `round(x, n)` with `unit = 10^n`. */
  function Round(x: real, unit: nat): real
    requires unit >= 1
  {
    Unscale(RoundHalfEven(Scale(x, unit)), unit)
  }

  function Scale(x: real, unit: nat): real {
    x * unit as real
  }

  function Unscale(k: int, unit: nat): real
    requires unit >= 1
  {
    k as real / unit as real
  }

  lemma ScaleMonotone(x: real, y: real, unit: nat)
    requires x <= y && unit >= 1
    ensures Scale(x, unit) <= Scale(y, unit)
  {
    assert Scale(y, unit) - Scale(x, unit) == (y - x) * unit as real;
  }

  lemma UnscaleMonotone(a: int, b: int, unit: nat)
    requires a <= b && unit >= 1
    ensures Unscale(a, unit) <= Unscale(b, unit)
  {
    assert Unscale(b, unit) - Unscale(a, unit) == (b - a) as real / unit as real;
  }

  /** The rounded value is within half a unit in the last kept place. */
  lemma RoundError(x: real, unit: nat)
    requires unit >= 1
    ensures -0.5 <= (Round(x, unit) - x) * unit as real <= 0.5
  {
    var k := RoundHalfEven(Scale(x, unit));
    assert (Unscale(k, unit) - x) * unit as real == k as real - Scale(x, unit);
  }

  lemma {:induction false} RoundHalfEvenMonotone(x: real, y: real)
    requires x <= y
    ensures RoundHalfEven(x) <= RoundHalfEven(y)
  {
    var fx, fy := x.Floor, y.Floor;
    assert fx <= fy by {
      assert fx as real <= x <= y < fy as real + 1.0;
    }
    if fx < fy {
      assert RoundHalfEven(x) <= fx + 1 <= fy <= RoundHalfEven(y);
    } else {
      assert x - fx as real <= y - fy as real;
    }
  }

  lemma RoundMonotone(x: real, y: real, unit: nat)
    requires x <= y && unit >= 1
    ensures Round(x, unit) <= Round(y, unit)
  {
    ScaleMonotone(x, y, unit);
    RoundHalfEvenMonotone(Scale(x, unit), Scale(y, unit));
    UnscaleMonotone(RoundHalfEven(Scale(x, unit)), RoundHalfEven(Scale(y, unit)), unit);
  }

  /** Whole numbers are left unchanged. */
  lemma RoundWhole(k: int, unit: nat)
    requires unit >= 1
    ensures Round(k as real, unit) == k as real
  {
    assert Scale(k as real, unit) == (k * unit) as real;
    assert ((k * unit) as real).Floor == k * unit;
    assert RoundHalfEven((k * unit) as real) == k * unit;
    assert Unscale(k * unit, unit) == k as real;
  }

  /** Rounding stays within whole-number bounds of its argument. */
  lemma RoundWithin(x: real, lo: int, hi: int, unit: nat)
    requires lo as real <= x <= hi as real && unit >= 1
    ensures lo as real <= Round(x, unit) <= hi as real
  {
    RoundMonotone(lo as real, x, unit);
    RoundMonotone(x, hi as real, unit);
    RoundWhole(lo, unit);
    RoundWhole(hi, unit);
  }

  lemma RoundNonNegative(x: real, unit: nat)
    requires 0.0 <= x && unit >= 1
    ensures 0.0 <= Round(x, unit)
  {
    RoundMonotone(0.0, x, unit);
    RoundWhole(0, unit);
  }

  /** A value of at least one unit in the last kept place does not round to zero. */
  lemma RoundPositive(x: real, unit: nat)
    requires unit >= 1 && Scale(x, unit) >= 1.0
    ensures Round(x, unit) > 0.0
  {
    var k := RoundHalfEven(Scale(x, unit));
    assert k >= 1;
    assert Unscale(k, unit) > 0.0;
  }
}

=== FILE: schema.dfy ===
/** The unified activity record and the per-player feature snapshot, with
    the defaults the schema declares. */
module Schema {
  import opened Wrappers

  /** Game outcome from the player's point of view. */
  datatype GameResult = Win | Loss | Draw | Unknown

  /** Timestamps are UTC instants in whole milliseconds since the epoch. */
  const SecondMs: int := 1000
  const DayMs: int := 86_400_000

  const ChessCom: string := "chess_com"
  const OpenDota: string := "opendota"
  const RiotLol: string := "riot_lol"

  /** One game played by one player on one platform. */
  datatype Activity = Activity(
    playerId: string,
    platform: string,
    timestamp: int,
    durationSeconds: int,
    result: GameResult,
    rating: Option<int>,
    gameMode: string)

  /** A record built from the three required fields, every other field at its schema default. */
  function NewActivity(playerId: string, platform: string, timestamp: int): (a: Activity)
    ensures a.playerId == playerId && a.platform == platform && a.timestamp == timestamp
    ensures a.durationSeconds == 0 && a.result == Unknown && a.rating == None && a.gameMode == "unknown"
  {
    Activity(playerId, platform, timestamp, 0, Unknown, None, "unknown")
  }

  /** One row of the feature table. */
  datatype PlayerFeatures = PlayerFeatures(
    playerId: string,
    platform: string,
    games7d: int,
    games14d: int,
    games30d: int,
    playtime7dHours: real,
    playtime14dHours: real,
    playtime30dHours: real,
    avgDailySessions7d: real,
    avgDailySessions14d: real,
    avgDailySessions30d: real,
    maxGapDays30d: real,
    gamesTrend7dVs14d: real,
    playtimeTrend7dVs14d: real,
    winRate7d: real,
    winRate30d: real,
    ratingCurrent: Option<int>,
    ratingChange30d: int,
    uniquePeers30d: int,
    peerGames30d: int,
    engagementScore: real,
    daysSinceLastGame: real,
    churned: bool)

  /** A snapshot with only its identity given: every count 0, every float
      0.0, no current rating, not churned. */
  function DefaultFeatures(playerId: string, platform: string): (f: PlayerFeatures)
    ensures f.playerId == playerId && f.platform == platform
    ensures f.games7d == f.games14d == f.games30d == 0
    ensures f.playtime7dHours == f.playtime14dHours == f.playtime30dHours == 0.0
    ensures f.avgDailySessions7d == f.avgDailySessions14d == f.avgDailySessions30d == 0.0
    ensures f.maxGapDays30d == 0.0
    ensures f.gamesTrend7dVs14d == f.playtimeTrend7dVs14d == 0.0
    ensures f.winRate7d == f.winRate30d == 0.0
    ensures f.ratingCurrent.None? && f.ratingChange30d == 0
    ensures f.uniquePeers30d == f.peerGames30d == 0
    ensures f.engagementScore == 0.0
    ensures f.daysSinceLastGame == 0.0 && !f.churned
  {
    PlayerFeatures(playerId, platform, 0, 0, 0, 0.0, 0.0, 0.0, 0.0, 0.0, 0.0, 0.0,
                   0.0, 0.0, 0.0, 0.0, None, 0, 0, 0, 0.0, 0.0, false)
  }
}

=== FILE: standardize.dfy ===
/** Per-platform standardizers (parsed raw records to `Activity` records) and
    the loader that merges every platform's records into one time-ordered
    list. The clock the source reads for missing timestamps is the
    parameter `now`. */
module Standardize {
  import opened Wrappers
  import opened Strings
  import opened Schema
  import opened RawData
  import opened Timeline

  /** A timestamp given in epoch seconds; a missing or zero value means "now". */
  function EpochSecondsOrNow(seconds: Option<int>, now: int): (t: int)
    ensures seconds.Some? && seconds.value != 0 ==> t == seconds.value * SecondMs
    ensures seconds.None? || seconds.value == 0 ==> t == now
  {
    if seconds.Some? && seconds.value != 0 then seconds.value * SecondMs else now
  }

  // ---------------------------------------------------------------- Chess.com

  const ChessLossCodes: set<string> := {"checkmated", "timeout", "resigned", "abandoned"}

  /** The player's outcome from the `result` code of the player's side. */
  function ChessResult(code: Option<string>): (r: GameResult)
    ensures r == Win <==> code == Some("win")
    ensures r == Loss <==> code.Some? && code.value in ChessLossCodes
    ensures r == Draw <==> code != Some("win") && !(code.Some? && code.value in ChessLossCodes)
  {
    var c := code.GetOr("unknown");
    if c == "win" then Win
    else if c in ChessLossCodes then Loss
    else Draw
  }

  const NoSide: ChessSide := ChessSide(None, None, None)

  predicate IsNamed(side: ChessSide, username: string) {
    Lower(side.username.GetOr("")) == Lower(username)
  }

  /** The side the requested player played: white when white's name matches
      ignoring case, black otherwise. */
  function PlayerSide(game: ChessGame, username: string): ChessSide {
    var white := game.white.GetOr(NoSide);
    if IsNamed(white, username) then white else game.black.GetOr(NoSide)
  }

  function ChessRecord(username: string, game: ChessGame, now: int): Activity {
    var side := PlayerSide(game, username);
    Activity(Lower(username), ChessCom, EpochSecondsOrNow(game.endTime, now), 0,
             ChessResult(side.result), side.rating, game.timeClass.GetOr("unknown"))
  }

  /** `standardize_chess_com`: one record per game of the player's games file,
      nothing when the file does not exist. */
  function StandardizeChessCom(username: string, gamesFile: Option<seq<ChessGame>>, now: int): (r: seq<Activity>)
    ensures gamesFile.None? ==> r == []
    ensures gamesFile.Some? ==> |r| == |gamesFile.value|
    ensures gamesFile.Some? ==> forall i :: 0 <= i < |r| ==>
      var side := PlayerSide(gamesFile.value[i], username);
      && r[i].playerId == Lower(username)
      && r[i].platform == ChessCom
      && r[i].durationSeconds == 0
      && r[i].rating == side.rating
      && r[i].result == ChessResult(side.result)
      && r[i].timestamp == EpochSecondsOrNow(gamesFile.value[i].endTime, now)
  {
    match gamesFile
    case None => []
    case Some(games) => seq(|games|, i requires 0 <= i < |games| => ChessRecord(username, games[i], now))
  }

  /** When exactly one side carries the player's name (ignoring case), the
      record's result and rating are that side's. */
  lemma ChessRecordUsesNamedSide(username: string, game: ChessGame, now: int, side: ChessSide)
    requires (game.white == Some(side) && IsNamed(side, username) && !IsNamed(game.black.GetOr(NoSide), username))
          || (game.black == Some(side) && IsNamed(side, username) && !IsNamed(game.white.GetOr(NoSide), username))
    ensures StandardizeChessCom(username, Some([game]), now)[0].rating == side.rating
    ensures StandardizeChessCom(username, Some([game]), now)[0].result == ChessResult(side.result)
  {
  }

  // ---------------------------------------------------------------- OpenDota

  /** Radiant occupies player slots below 128. */
  const RadiantSlots: int := 128

  function DotaRecord(accountId: string, m: DotaMatch, now: int): Activity {
    var isRadiant := m.playerSlot.GetOr(0) < RadiantSlots;
    var radiantWin := m.radiantWin.GetOr(false);
    var won := (isRadiant && radiantWin) || (!isRadiant && !radiantWin);
    var mode := if m.gameMode.Some? then IntToDecimal(m.gameMode.value) else "unknown";
    Activity(accountId, OpenDota, EpochSecondsOrNow(m.startTime, now), m.duration.GetOr(0),
             if won then Win else Loss, None, mode)
  }

  /** `standardize_opendota`: one record per match; the player won exactly
      when the side of their slot is the side that won. */
  function StandardizeOpenDota(accountId: string, matchesFile: Option<seq<DotaMatch>>, now: int): (r: seq<Activity>)
    ensures matchesFile.None? ==> r == []
    ensures matchesFile.Some? ==> |r| == |matchesFile.value|
    ensures matchesFile.Some? ==> forall i :: 0 <= i < |r| ==>
      var m := matchesFile.value[i];
      && r[i].playerId == accountId
      && r[i].platform == OpenDota
      && (r[i].result == Win <==> (m.playerSlot.GetOr(0) < RadiantSlots) == (m.radiantWin == Some(true)))
      && (r[i].result == Win || r[i].result == Loss)
      && r[i].rating == None
      && r[i].durationSeconds == m.duration.GetOr(0)
      && r[i].timestamp == EpochSecondsOrNow(m.startTime, now)
  {
    match matchesFile
    case None => []
    case Some(ms) => seq(|ms|, i requires 0 <= i < |ms| => DotaRecord(accountId, ms[i], now))
  }

  // ---------------------------------------------------------------- Riot

  /** The file-name stem the Riot collector uses for a Riot ID. */
  function SafeName(gameName: string, tagLine: string): string {
    Lower(gameName + "_" + tagLine)
  }

  /** `account.get("puuid", "")`: the empty string when the member is
      missing, but `None` when it is present as `null`. */
  function AccountKey(account: RiotAccount): (key: Option<string>)
    ensures key.None? <==> account.puuid.Null?
    ensures key == Some("") <==> account.puuid.Absent? || account.puuid == Present("")
    ensures account.puuid.Present? ==> key == Some(account.puuid.value)
  {
    match account.puuid
    case Absent => Some("")
    case Null => None
    case Present(id) => Some(id)
  }

  /** The first participant whose `puuid` equals the account's key; a
      participant without a `puuid` counts as `None`. */
  function FindParticipant(ps: seq<RiotParticipant>, key: Option<string>): (r: Option<RiotParticipant>)
    ensures r.None? <==> forall k :: 0 <= k < |ps| ==> ps[k].puuid != key
    ensures r.Some? ==> exists k :: (0 <= k < |ps| && ps[k] == r.value && ps[k].puuid == key
                                     && forall j :: 0 <= j < k ==> ps[j].puuid != key)
  {
    if |ps| == 0 then None
    else if ps[0].puuid == key then Some(ps[0])
    else
      var r := FindParticipant(ps[1..], key);
      if r.Some? then
        var k :| 0 <= k < |ps[1..]| && ps[1..][k] == r.value && ps[1..][k].puuid == key
          && forall j :: 0 <= j < k ==> ps[1..][j].puuid != key;
        assert ps[k + 1] == r.value;
        r
      else r
  }

  const NoInfo: RiotInfo := RiotInfo(None, None, None, None)

  predicate HasPlayer(m: RiotMatch, key: Option<string>) {
    exists k :: 0 <= k < |m.info.GetOr(NoInfo).participants.GetOr([])|
      && m.info.GetOr(NoInfo).participants.GetOr([])[k].puuid == key
  }

  /** The record for one match, or `None` when the player is not among its participants. */
  function RiotRecord(m: RiotMatch, name: string, key: Option<string>): (r: Option<Activity>)
    ensures r.Some? <==> HasPlayer(m, key)
    ensures r.Some? ==>
      var info := m.info.GetOr(NoInfo);
      && r.value.playerId == name && r.value.platform == RiotLol
      && r.value.timestamp == info.gameCreation.GetOr(0)
      && r.value.durationSeconds == info.gameDuration.GetOr(0)
      && r.value.rating == None
      && (r.value.result == Win <==> FindParticipant(info.participants.GetOr([]), key).value.win == Some(true))
      && (r.value.result == Win || r.value.result == Loss)
  {
    var info := m.info.GetOr(NoInfo);
    match FindParticipant(info.participants.GetOr([]), key)
    case None => None
    case Some(p) =>
      Some(Activity(name, RiotLol, info.gameCreation.GetOr(0), info.gameDuration.GetOr(0),
                    if p.win == Some(true) then Win else Loss, None, info.gameMode.GetOr("unknown")))
  }

  function CountWithPlayer(ms: seq<RiotMatch>, key: Option<string>): (n: nat)
    ensures n <= |ms|
  {
    if |ms| == 0 then 0 else (if HasPlayer(ms[0], key) then 1 else 0) + CountWithPlayer(ms[1..], key)
  }

  /** The records of the matches the player took part in, in file order. */
  function RiotRecords(ms: seq<RiotMatch>, name: string, key: Option<string>): (r: seq<Activity>)
    ensures |r| == CountWithPlayer(ms, key)
    ensures forall a :: a in r ==> exists i :: 0 <= i < |ms| && RiotRecord(ms[i], name, key) == Some(a)
    ensures forall i :: 0 <= i < |ms| && RiotRecord(ms[i], name, key).Some? ==> RiotRecord(ms[i], name, key).value in r
  {
    if |ms| == 0 then []
    else
      var rest := RiotRecords(ms[1..], name, key);
      assert forall i :: 1 <= i < |ms| ==> ms[i] == ms[1..][i - 1];
      match RiotRecord(ms[0], name, key)
      case None => rest
      case Some(a) => [a] + rest
  }

  /** `standardize_riot`: needs both the matches file and the account file;
      a match without the account's participant is skipped. */
  function StandardizeRiot(gameName: string, tagLine: string, matchesFile: Option<seq<RiotMatch>>,
                           accountFile: Option<RiotAccount>): (r: seq<Activity>)
    ensures matchesFile.None? || accountFile.None? ==> r == []
    ensures matchesFile.Some? && accountFile.Some? ==>
      |r| == CountWithPlayer(matchesFile.value, AccountKey(accountFile.value))
    ensures matchesFile.Some? && accountFile.Some? ==>
      r == RiotRecords(matchesFile.value, SafeName(gameName, tagLine), AccountKey(accountFile.value))
    ensures |r| <= |matchesFile.GetOr([])|
    ensures forall a :: a in r ==> a.playerId == SafeName(gameName, tagLine) && a.platform == RiotLol && a.rating == None
  {
    if matchesFile.None? || accountFile.None? then []
    else RiotRecords(matchesFile.value, SafeName(gameName, tagLine), AccountKey(accountFile.value))
  }

  /** Matches in which the account never appears contribute nothing. */
  lemma {:induction false} RiotSkipsForeignMatches(ms: seq<RiotMatch>, name: string, key: Option<string>)
    requires forall i :: 0 <= i < |ms| ==> !HasPlayer(ms[i], key)
    ensures RiotRecords(ms, name, key) == []
  {
    if |ms| > 0 {
      assert forall i :: 0 <= i < |ms[1..]| ==> ms[1..][i] == ms[i + 1];
      RiotSkipsForeignMatches(ms[1..], name, key);
    }
  }

  /** The records of concatenated match lists are the concatenated records:
      matches are read in file order, each on its own. */
  lemma {:induction false} RiotRecordsAppend(a: seq<RiotMatch>, b: seq<RiotMatch>, name: string, key: Option<string>)
    ensures RiotRecords(a + b, name, key) == RiotRecords(a, name, key) + RiotRecords(b, name, key)
  {
    if |a| == 0 {
      assert a + b == b;
    } else {
      assert (a + b)[0] == a[0];
      assert (a + b)[1..] == a[1..] + b;
      RiotRecordsAppend(a[1..], b, name, key);
    }
  }

  /** A single match gives its one record when the account plays in it, and nothing otherwise. */
  lemma RiotRecordsOne(m: RiotMatch, name: string, key: Option<string>)
    ensures RiotRecords([m], name, key) == if HasPlayer(m, key) then [RiotRecord(m, name, key).value] else []
  {
    assert [m][1..] == [];
  }

  /** A `null` account `puuid` is not the missing-key default: it matches a
      participant that has no `puuid`, so such a match yields a record, while
      an account file without the member yields none from the same match. */
  lemma NullAccountMatchesAnonymousParticipant(gameName: string, tagLine: string, info: RiotInfo, win: Option<bool>)
    requires info.participants == Some([RiotParticipant(None, win)])
    ensures |StandardizeRiot(gameName, tagLine, Some([RiotMatch(Some(info))]), Some(RiotAccount(Null)))| == 1
    ensures StandardizeRiot(gameName, tagLine, Some([RiotMatch(Some(info))]), Some(RiotAccount(Absent))) == []
  {
    var ms := [RiotMatch(Some(info))];
    assert ms[1..] == [];
    assert HasPlayer(ms[0], None) by {
      assert ms[0].info.GetOr(NoInfo) == info;
      assert |info.participants.GetOr([])| == 1;
      assert info.participants.GetOr([])[0].puuid == None;
    }
    assert !HasPlayer(ms[0], Some(""));
  }

  // ---------------------------------------------------------------- Loader

  /** The stems (file name without `.json`) of the listed files matching `*<suffix>.json`, in listing order. */
  function GlobStems(listing: seq<string>, suffix: string): (r: seq<string>)
    ensures forall s :: s in r ==> EndsWith(s, suffix) && s + ".json" in listing
    ensures forall f :: f in listing && EndsWith(f, suffix + ".json") ==> f[..|f| - |".json"|] in r
  {
    if |listing| == 0 then []
    else
      var rest := GlobStems(listing[1..], suffix);
      if EndsWith(listing[0], suffix + ".json") then
        EndsWithSplit(listing[0], suffix, ".json");
        [StripSuffix(listing[0], ".json")] + rest
      else rest
  }

  /** The player identifier in front of a file-kind suffix (`alice_games` to `alice`). */
  function StemOwner(stem: string, kind: string): (r: string)
    requires EndsWith(stem, kind)
    ensures r + kind == stem
  {
    StripSuffix(stem, kind)
  }

  /** The identifier the source actually recovers: `stem.replace(kind, "")`,
      which also deletes occurrences of `kind` inside the identifier. */
  function StemOwnerAsWritten(stem: string, kind: string): string
    requires |kind| > 0
  {
    RemoveAll(stem, kind)
  }

  function ChessFromStems(stems: seq<string>, store: RawStore, now: int): (r: seq<Activity>)
    requires forall s :: s in stems ==> EndsWith(s, "_games")
    ensures forall a :: a in r ==> a.platform == ChessCom
  {
    if |stems| == 0 then []
    else
      var username := StemOwner(stems[0], "_games");
      StandardizeChessCom(username, ChessGamesFile(store, Lower(username) + "_games.json"), now)
        + ChessFromStems(stems[1..], store, now)
  }

  function DotaFromStems(stems: seq<string>, store: RawStore, now: int): (r: seq<Activity>)
    requires forall s :: s in stems ==> EndsWith(s, "_matches")
    ensures forall a :: a in r ==> a.platform == OpenDota
  {
    if |stems| == 0 then []
    else
      var accountId := StemOwner(stems[0], "_matches");
      StandardizeOpenDota(accountId, DotaMatchesFile(store, accountId + "_matches.json"), now)
        + DotaFromStems(stems[1..], store, now)
  }

  /** The Riot ID's game name and tag line recovered from a file-name stem by
      splitting at its last underscore; `None` when it has none. */
  function RiotIdOf(safeName: string): Option<(string, string)> {
    SplitAtLast(safeName, '_')
  }

  function RiotFromStems(stems: seq<string>, store: RawStore): (r: seq<Activity>)
    requires forall s :: s in stems ==> EndsWith(s, "_account")
    ensures forall a :: a in r ==> a.platform == RiotLol
  {
    if |stems| == 0 then []
    else
      var here := match RiotIdOf(StemOwner(stems[0], "_account"))
        case None => []
        case Some((gameName, tagLine)) =>
          var safe := SafeName(gameName, tagLine);
          StandardizeRiot(gameName, tagLine, RiotMatchesFile(store, safe + "_matches.json"),
                          RiotAccountFile(store, safe + "_account.json"));
      here + RiotFromStems(stems[1..], store)
  }

  /** Every platform's standardized records, before sorting. */
  function Collected(store: RawStore, now: int): (r: seq<Activity>)
    ensures forall a :: a in r ==> a.platform == ChessCom || a.platform == OpenDota || a.platform == RiotLol
  {
    var chess := if store.chess.Some? then ChessFromStems(GlobStems(store.chess.value.listing, "_games"), store, now) else [];
    var dota := if store.dota.Some? then DotaFromStems(GlobStems(store.dota.value.listing, "_matches"), store, now) else [];
    var riot := if store.riot.Some? then RiotFromStems(GlobStems(store.riot.value.listing, "_account"), store) else [];
    chess + dota + riot
  }

  /** `load_all_activities`: all platforms' records, each exactly once, in
      ascending timestamp order; empty when no platform directory exists. */
  function LoadAllActivities(store: RawStore, now: int): (r: seq<Activity>)
    ensures SortedByTime(r)
    ensures multiset(r) == multiset(Collected(store, now))
    ensures store.chess.None? && store.dota.None? && store.riot.None? ==> r == []
    ensures forall a :: a in r ==> a.platform == ChessCom || a.platform == OpenDota || a.platform == RiotLol
  {
    var all := Collected(store, now);
    var r := SortByTime(all);
    assert forall a :: a in r ==> a in multiset(all);
    r
  }

  /** A games file written by the collector under the lower-cased username is
      found again: the suffix-stripping recovery gives that username back from
      the file name and looks up exactly that file. */
  lemma ChessFileNameRoundTrip(username: string)
    ensures var name := Lower(username) + "_games.json";
      && GlobStems([name], "_games") == [Lower(username) + "_games"]
      && StemOwner(Lower(username) + "_games", "_games") == Lower(username)
      && Lower(StemOwner(Lower(username) + "_games", "_games")) + "_games.json" == name
  {
    var u := Lower(username);
    assert [u + "_games.json"][1..] == [];
    assert u + "_games.json" == u + "_games" + ".json";
    StripSuffixOfAppend(u + "_games", ".json");
    StripSuffixOfAppend(u, "_games");
    LowerIdempotent(username);
  }

  /** The round trip of the source's own recovery, `stem.replace("_games", "")`:
      for a lower-cased username without `_games` in it, the recovered name is
      the username and the lookup names the same file. */
  lemma ChessFileNameRoundTripAsWritten(username: string)
    requires !Occurs(Lower(username), "_games")
    ensures StemOwnerAsWritten(Lower(username) + "_games", "_games") == Lower(username)
    ensures Lower(StemOwnerAsWritten(Lower(username) + "_games", "_games")) + "_games.json"
            == Lower(username) + "_games.json"
  {
    var p := "_games";
    assert forall k :: 0 < k < |p| ==> p[k] != p[0];
    RemoveAllFromSuffixed(Lower(username), p);
    LowerIdempotent(username);
  }

  /** The Riot file-name stem `<game name>_<tag line>` survives the split at
      its last underscore: the rejoined name is the stem itself, so the
      suffix-stripping loader finds the collector's files even when the tag
      line holds an underscore (a name holding `_account` is another matter
      for the source's `str.replace`). */
  lemma RiotFileNameRoundTrip(gameName: string, tagLine: string)
    ensures var stem := SafeName(gameName, tagLine) + "_account";
      && StemOwner(stem, "_account") == SafeName(gameName, tagLine)
      && RiotIdOf(SafeName(gameName, tagLine)).Some?
      && SafeName(RiotIdOf(SafeName(gameName, tagLine)).value.0, RiotIdOf(SafeName(gameName, tagLine)).value.1)
         == SafeName(gameName, tagLine)
  {
    var safe := SafeName(gameName, tagLine);
    StripSuffixOfAppend(safe, "_account");
    LowerAppend(gameName + "_", tagLine);
    LowerAppend(gameName, "_");
    assert safe == Lower(gameName) + "_" + Lower(tagLine);
    assert safe[|Lower(gameName)|] == '_';
    var parts := RiotIdOf(safe).value;
    assert parts.0 + "_" + parts.1 == safe;
    LowerIdempotent(gameName + "_" + tagLine);
  }

  /** Splitting a stem without an underscore yields one part, and the loader skips it. */
  lemma RiotStemWithoutUnderscoreSkipped(stem: string, store: RawStore)
    requires EndsWith(stem, "_account") && '_' !in StemOwner(stem, "_account")
    ensures RiotFromStems([stem], store) == []
  {
  }

  /** The file-name stems `<id><kind>` the collector writes for these ids. */
  function StemsOf(ids: seq<string>, kind: string): (stems: seq<string>)
    ensures |stems| == |ids|
    ensures forall s :: s in stems ==> EndsWith(s, kind)
  {
    if |ids| == 0 then []
    else
      StripSuffixOfAppend(ids[0], kind);
      [ids[0] + kind] + StemsOf(ids[1..], kind)
  }

  /** Each user's own games file standardized for that user, in order. */
  function ChessOfUsers(users: seq<string>, store: RawStore, now: int): seq<Activity> {
    if |users| == 0 then []
    else StandardizeChessCom(users[0], ChessGamesFile(store, users[0] + "_games.json"), now)
         + ChessOfUsers(users[1..], store, now)
  }

  /** The loader reads every collected games file exactly once, as the games
      of the user whose name the file carries. */
  lemma {:induction false} ChessFromStemsReadsOwnFiles(users: seq<string>, store: RawStore, now: int)
    requires forall u :: u in users ==> Lower(u) == u
    ensures ChessFromStems(StemsOf(users, "_games"), store, now) == ChessOfUsers(users, store, now)
  {
    if |users| > 0 {
      var u := users[0];
      StripSuffixOfAppend(u, "_games");
      assert StemsOf(users, "_games")[1..] == StemsOf(users[1..], "_games");
      assert forall v :: v in users[1..] ==> v in users;
      ChessFromStemsReadsOwnFiles(users[1..], store, now);
    }
  }

  /** Each account's own matches file standardized for that account, in order. */
  function DotaOfAccounts(accounts: seq<string>, store: RawStore, now: int): seq<Activity> {
    if |accounts| == 0 then []
    else StandardizeOpenDota(accounts[0], DotaMatchesFile(store, accounts[0] + "_matches.json"), now)
         + DotaOfAccounts(accounts[1..], store, now)
  }

  /** The loader reads every collected matches file exactly once, as the
      matches of the account the file is named after. */
  lemma {:induction false} DotaFromStemsReadsOwnFiles(accounts: seq<string>, store: RawStore, now: int)
    ensures DotaFromStems(StemsOf(accounts, "_matches"), store, now) == DotaOfAccounts(accounts, store, now)
  {
    if |accounts| > 0 {
      StripSuffixOfAppend(accounts[0], "_matches");
      assert StemsOf(accounts, "_matches")[1..] == StemsOf(accounts[1..], "_matches");
      DotaFromStemsReadsOwnFiles(accounts[1..], store, now);
    }
  }

  /** The Chess.com part of the loader as the source writes it, recovering
      the username with `StemOwnerAsWritten`. */
  function ChessFromStemsAsWritten(stems: seq<string>, store: RawStore, now: int): (r: seq<Activity>)
    ensures forall a :: a in r ==> a.platform == ChessCom
  {
    if |stems| == 0 then []
    else
      var username := StemOwnerAsWritten(stems[0], "_games");
      StandardizeChessCom(username, ChessGamesFile(store, Lower(username) + "_games.json"), now)
        + ChessFromStemsAsWritten(stems[1..], store, now)
  }

  /** Two Chess.com users, `x` and `x_games`, each with one collected game. */
  function CollisionStore(g: ChessGame, h: ChessGame): RawStore {
    RawStore(Some(ChessDir(["x_games.json", "x_games_games.json"],
                           map["x_games.json" := [g], "x_games_games.json" := [h]])), None, None)
  }

  lemma CollisionStems()
    ensures GlobStems(["x_games.json", "x_games_games.json"], "_games") == ["x_games", "x_games_games"]
  {
    var listing := ["x_games.json", "x_games_games.json"];
    assert EndsWith("x_games.json", "_games" + ".json");
    assert EndsWith("x_games_games.json", "_games" + ".json");
    assert StripSuffix("x_games.json", ".json") == "x_games";
    assert StripSuffix("x_games_games.json", ".json") == "x_games_games";
    assert listing[1..] == ["x_games_games.json"];
    assert GlobStems(listing[1..][1..], "_games") == [];
  }

  lemma CollisionFiles(g: ChessGame, h: ChessGame)
    ensures ChessGamesFile(CollisionStore(g, h), "x" + "_games.json") == Some([g])
    ensures ChessGamesFile(CollisionStore(g, h), "x_games" + "_games.json") == Some([h])
  {
    assert "x" + "_games.json" == "x_games.json";
    assert "x_games" + "_games.json" == "x_games_games.json";
  }

  lemma RemoveAllShort()
    ensures StemOwnerAsWritten("x_games", "_games") == "x"
  {
    assert RemoveAll("_games", "_games") == "" by {
      assert "_games"[6..] == "";
    }
    assert "x_games"[..6][0] != "_games"[0];
    assert "x_games"[1..] == "_games";
  }

  lemma RemoveAllLong()
    ensures StemOwnerAsWritten("x_games_games", "_games") == "x"
  {
    assert RemoveAll("_games", "_games") == "" by {
      assert "_games"[6..] == "";
    }
    assert RemoveAll("_games_games", "_games") == "" by {
      assert "_games_games"[..6] == "_games";
      assert "_games_games"[6..] == "_games";
    }
    assert "x_games_games"[..6][0] != "_games"[0];
    assert "x_games_games"[1..] == "_games_games";
  }

  lemma CollisionOwners()
    ensures StemOwner("x_games", "_games") == "x"
    ensures StemOwner("x_games_games", "_games") == "x_games"
    ensures Lower("x") == "x" && Lower("x_games") == "x_games"
  {
  }

  lemma CollisionAsWritten(g: ChessGame, h: ChessGame, now: int)
    ensures ChessFromStemsAsWritten(["x_games", "x_games_games"], CollisionStore(g, h), now)
            == [ChessRecord("x", g, now), ChessRecord("x", g, now)]
  {
    var store := CollisionStore(g, h);
    CollisionFiles(g, h);
    RemoveAllShort();
    RemoveAllLong();
    CollisionOwners();
    var stems := ["x_games", "x_games_games"];
    var tail := ["x_games_games"];
    assert stems[0] == "x_games" && stems[1..] == tail && tail[0] == "x_games_games" && tail[1..] == [];
    var recG := StandardizeChessCom("x", Some([g]), now);
    assert recG == [ChessRecord("x", g, now)];
    assert ChessFromStemsAsWritten(tail, store, now) == recG + [];
    assert ChessFromStemsAsWritten(stems, store, now) == recG + recG;
  }

  lemma CorrectedTail(g: ChessGame, h: ChessGame, now: int)
    ensures ChessFromStems(["x_games_games"], CollisionStore(g, h), now) == [ChessRecord("x_games", h, now)]
  {
    CollisionFiles(g, h);
    CollisionOwners();
    var tail := ["x_games_games"];
    assert tail[0] == "x_games_games" && tail[1..] == [];
    var recH := StandardizeChessCom("x_games", Some([h]), now);
    assert recH == [ChessRecord("x_games", h, now)];
    assert ChessFromStems(tail, CollisionStore(g, h), now) == recH + [];
  }

  lemma CollisionCorrected(g: ChessGame, h: ChessGame, now: int)
    ensures ChessFromStems(["x_games", "x_games_games"], CollisionStore(g, h), now)
            == [ChessRecord("x", g, now), ChessRecord("x_games", h, now)]
  {
    var store := CollisionStore(g, h);
    CollisionFiles(g, h);
    CollisionOwners();
    CorrectedTail(g, h, now);
    var stems := ["x_games", "x_games_games"];
    assert stems[0] == "x_games" && stems[1..] == ["x_games_games"];
    var recG := StandardizeChessCom("x", Some([g]), now);
    assert recG == [ChessRecord("x", g, now)];
    assert ChessFromStems(stems, store, now) == recG + [ChessRecord("x_games", h, now)];
  }

  /** Chess.com user `x` and user `x_games` both collected: as written, the
      file `x_games_games.json` is read as user `x`'s, so `x`'s game appears
      twice and `x_games`'s game never; with the suffix stripped, each file
      yields its own user's game once. */
  lemma ChessStemReplaceCollision(g: ChessGame, h: ChessGame, now: int)
    ensures var stems := GlobStems(CollisionStore(g, h).chess.value.listing, "_games");
      && stems == ["x_games", "x_games_games"]
      && ChessFromStemsAsWritten(stems, CollisionStore(g, h), now) == [ChessRecord("x", g, now), ChessRecord("x", g, now)]
      && ChessFromStems(stems, CollisionStore(g, h), now) == [ChessRecord("x", g, now), ChessRecord("x_games", h, now)]
  {
    CollisionStems();
    CollisionAsWritten(g, h, now);
    CollisionCorrected(g, h, now);
  }
}

=== FILE: strings.dfy ===
/** The few string operations the standardizers use on player names and
    file names. Lower-casing is ASCII-only. */
module Strings {
  import opened Wrappers

  function LowerChar(c: char): char {
    if 'A' <= c <= 'Z' then (c as int - 'A' as int + 'a' as int) as char else c
  }

  /** `str.lower()`, restricted to ASCII letters. */
  function Lower(s: string): (r: string)
    ensures |r| == |s|
    ensures forall i :: 0 <= i < |s| ==> r[i] == LowerChar(s[i])
  {
    if |s| == 0 then "" else [LowerChar(s[0])] + Lower(s[1..])
  }

  lemma LowerIdempotent(s: string)
    ensures Lower(Lower(s)) == Lower(s)
  {
  }

  lemma LowerAppend(a: string, b: string)
    ensures Lower(a + b) == Lower(a) + Lower(b)
  {
    assert forall i :: 0 <= i < |a + b| ==> Lower(a + b)[i] == (Lower(a) + Lower(b))[i];
  }

  predicate EndsWith(s: string, suffix: string) {
    |suffix| <= |s| && s[|s| - |suffix|..] == suffix
  }

  /** The text before a suffix the caller knows is present. */
  function StripSuffix(s: string, suffix: string): (r: string)
    requires EndsWith(s, suffix)
    ensures r + suffix == s
  {
    s[..|s| - |suffix|]
  }

  lemma StripSuffixOfAppend(x: string, suffix: string)
    ensures EndsWith(x + suffix, suffix)
    ensures StripSuffix(x + suffix, suffix) == x
  {
    assert (x + suffix)[|x|..] == suffix;
    assert (x + suffix)[..|x|] == x;
  }

  /** A string ending in `a + b` ends in `b`, and what precedes `b` ends in `a`. */
  lemma EndsWithSplit(s: string, a: string, b: string)
    requires EndsWith(s, a + b)
    ensures EndsWith(s, b)
    ensures EndsWith(StripSuffix(s, b), a)
  {
    var n := |s| - |a + b|;
    assert s == s[..n] + a + b by {
      assert s[n..] == a + b;
    }
    assert StripSuffix(s, b) == s[..n] + a;
  }

  /** `pattern` occurs in `s` starting at index `i`. */
  predicate OccursAt(s: string, pattern: string, i: int) {
    0 <= i <= |s| - |pattern| && s[i..i + |pattern|] == pattern
  }

  /** `pattern` occurs somewhere in `s`. */
  ghost predicate Occurs(s: string, pattern: string) {
    exists i :: 0 <= i <= |s| && OccursAt(s, pattern, i)
  }

  /** `str.replace(pattern, "")`: every non-overlapping occurrence of `pattern`,
      scanning left to right, is deleted. Text without an occurrence comes
      back unchanged; otherwise at least one whole copy goes. */
  function RemoveAll(s: string, pattern: string): (r: string)
    requires |pattern| > 0
    ensures !Occurs(s, pattern) ==> r == s
    ensures Occurs(s, pattern) ==> |r| <= |s| - |pattern|
    ensures |r| <= |s|
    decreases |s|
  {
    if |s| < |pattern| then s
    else if s[..|pattern|] == pattern then
      assert OccursAt(s, pattern, 0);
      RemoveAll(s[|pattern|..], pattern)
    else
      OccursInTail(s, pattern);
      [s[0]] + RemoveAll(s[1..], pattern)
  }

  /** Away from the front, an occurrence in `s` is one in `s[1..]`, and back. */
  lemma OccursInTail(s: string, pattern: string)
    requires |s| >= |pattern| > 0 && s[..|pattern|] != pattern
    ensures Occurs(s, pattern) <==> Occurs(s[1..], pattern)
  {
    if Occurs(s, pattern) {
      var i :| 0 <= i <= |s| && OccursAt(s, pattern, i);
      assert i != 0;
      assert s[1..][i - 1..i - 1 + |pattern|] == pattern;
      assert OccursAt(s[1..], pattern, i - 1);
    }
    if Occurs(s[1..], pattern) {
      var j :| 0 <= j <= |s[1..]| && OccursAt(s[1..], pattern, j);
      assert j + 1 + |pattern| <= |s|;
      assert s[j + 1..j + 1 + |pattern|] == s[1..][j..j + |pattern|];
      assert OccursAt(s, pattern, j + 1);
    }
  }

  /** When the pattern's first character does not recur in it, deleting the
      pattern from `u + pattern` with `u` free of it gives `u` back: the
      appended copy cannot overlap an earlier match. */
  lemma {:induction false} RemoveAllFromSuffixed(u: string, pattern: string)
    requires |pattern| > 0 && forall k :: 0 < k < |pattern| ==> pattern[k] != pattern[0]
    requires !Occurs(u, pattern)
    ensures RemoveAll(u + pattern, pattern) == u
    decreases |u|
  {
    var s := u + pattern;
    if |u| == 0 {
      assert s == pattern && s[..|pattern|] == pattern && s[|pattern|..] == [];
    } else {
      if |u| >= |pattern| {
        assert s[..|pattern|] == u[0..|pattern|];
        assert !OccursAt(u, pattern, 0);
      } else {
        assert s[..|pattern|][|u|] == s[|u|] == pattern[0] != pattern[|u|];
      }
      assert s[1..] == u[1..] + pattern;
      assert !Occurs(u[1..], pattern) by {
        if Occurs(u[1..], pattern) {
          var j :| 0 <= j <= |u[1..]| && OccursAt(u[1..], pattern, j);
          assert u[j + 1..j + 1 + |pattern|] == u[1..][j..j + |pattern|];
          assert OccursAt(u, pattern, j + 1);
        }
      }
      RemoveAllFromSuffixed(u[1..], pattern);
    }
  }

  /** Index of the last occurrence of `c` in `s`, if any. */
  function LastIndexOf(s: string, c: char): (r: Option<nat>)
    ensures r.None? <==> c !in s
    ensures r.Some? ==> r.value < |s| && s[r.value] == c && c !in s[r.value + 1..]
  {
    if |s| == 0 then None
    else if s[|s| - 1] == c then Some(|s| - 1)
    else
      var k := LastIndexOf(s[..|s| - 1], c);
      if k.Some? then
        assert s[k.value + 1..] == s[..|s| - 1][k.value + 1..] + [s[|s| - 1]];
        k
      else
        assert s == s[..|s| - 1] + [s[|s| - 1]];
        None
  }

  /** `s.rsplit(sep, 1)` when it yields two parts: the text before and after
      the last `sep`. `None` when `sep` does not occur (one part). */
  function SplitAtLast(s: string, sep: char): (r: Option<(string, string)>)
    ensures r.None? <==> sep !in s
    ensures r.Some? ==> r.value.0 + [sep] + r.value.1 == s && sep !in r.value.1
  {
    match LastIndexOf(s, sep)
    case None => None
    case Some(k) =>
      assert s == s[..k] + [sep] + s[k + 1..];
      Some((s[..k], s[k + 1..]))
  }

  function DigitChar(d: nat): char
    requires d < 10
  {
    ('0' as int + d) as char
  }

  function NatToDecimal(n: nat): (r: string)
    ensures |r| > 0
    ensures forall i :: 0 <= i < |r| ==> '0' <= r[i] <= '9'
  {
    if n < 10 then [DigitChar(n)] else NatToDecimal(n / 10) + [DigitChar(n % 10)]
  }

  /** `str(n)` for a Python int. */
  function IntToDecimal(n: int): (r: string)
    ensures |r| > 0
    ensures (r[0] == '-') <==> n < 0
  {
    if n < 0 then "-" + NatToDecimal(-n) else NatToDecimal(n)
  }
}

=== FILE: timeline.dfy ===
/** Ordering activities by timestamp. Ties may come out in any order in the
    source (its dataframe sort is not stable); the properties below hold for
    every tie order. */
module Timeline {
  import opened Schema

  predicate SortedByTime(s: seq<Activity>) {
    forall i, j :: 0 <= i < j < |s| ==> s[i].timestamp <= s[j].timestamp
  }

  function Insert(a: Activity, s: seq<Activity>): (r: seq<Activity>)
    requires SortedByTime(s)
    ensures SortedByTime(r)
    ensures multiset(r) == multiset(s) + multiset{a}
    ensures forall x :: x in r ==> x == a || x in s
  {
    if |s| == 0 then [a]
    else if a.timestamp <= s[0].timestamp then [a] + s
    else
      var rest := Insert(a, s[1..]);
      assert s == [s[0]] + s[1..];
      LowerBound(s[0], a, s[1..], rest);
      [s[0]] + rest
  }

  lemma LowerBound(first: Activity, a: Activity, tail: seq<Activity>, rest: seq<Activity>)
    requires first.timestamp <= a.timestamp
    requires forall x :: x in tail ==> first.timestamp <= x.timestamp
    requires forall x :: x in rest ==> x == a || x in tail
    requires SortedByTime(rest)
    ensures SortedByTime([first] + rest)
  {
    var r := [first] + rest;
    forall i, j | 0 <= i < j < |r|
      ensures r[i].timestamp <= r[j].timestamp
    {
      if i == 0 {
        assert r[j] in rest;
      } else {
        assert r[i] == rest[i - 1] && r[j] == rest[j - 1];
      }
    }
  }

  /** The activities in ascending timestamp order. */
  function SortByTime(s: seq<Activity>): (r: seq<Activity>)
    ensures SortedByTime(r)
    ensures multiset(r) == multiset(s)
    ensures |r| == |s|
  {
    if |s| == 0 then []
    else
      assert s == [s[0]] + s[1..];
      Insert(s[0], SortByTime(s[1..]))
  }

  /** The last element of a sorted, non-empty sequence has the latest timestamp. */
  lemma LastIsLatest(s: seq<Activity>)
    requires SortedByTime(s) && |s| > 0
    ensures forall a :: a in s ==> a.timestamp <= s[|s| - 1].timestamp
  {
  }
}

=== FILE: wrappers.dfy ===
/** Optional values: a missing JSON key, a JSON null, an absent file or an
    absent rating are all `None`. */
module Wrappers {

  datatype Option<+T> = None | Some(value: T) {

    /** The wrapped value, or `default` when there is none (Python's `dict.get(key, default)`). */
    function GetOr(default: T): T {
      match this
      case Some(v) => v
      case None => default
    }
  }
}
